=== FILE: README.md ===
# PDFCrawler in Dafny

A model of `PDFDownloader`, the crawler in `pdf_crawler.py`. The crawler
asks a Google custom search for PDF links and judges each link through a
fixed chain of filters:

1. the network location (host, with any user info and port) must end in ".de";
2. a HEAD request must succeed;
3. the Content-Type must be exactly "application/pdf";
4. the Last-Modified instant must not be before the cutoff;
5. the Content-Length must be within the size limit;
6. a GET request must succeed.

A link that passes every filter is stored as `out/YYYYMMDD_<last URL
segment>`, and its row `[url, filename]` is appended to the CSV manifest.
While fewer than `num_results` files have been downloaded, the crawler
searches again for the shortfall.

Modules, one per concern of the program:

- `Common`: `Option` and bytes.
- `Urls`: the network location as `urlparse` computes it, `url.split('/')[-1]`, and POSIX `os.path.join`.
- `Dates`: calendar dates and the `%Y%m%d` rendering, with its inverse.
- `Filters`: the response headers and the four predicates `is_valid_domain`, `is_valid_pdf`, `is_below_max_size` and `is_newer_than_cutoff`.
- `Manifest`: the store, meaning the manifest file (absent or a list of rows) and the written files; `init_csv`; the stored file name.
- `Pipeline`: the ordered filter chain for one link, as a `Verdict` (the outcome plus the checks that ran); the requests the chain issues.
- `Search`: `search_pdfs_until_goal`, with the search service as an oracle from start index to page.
- `Downloader`: `download_single_pdf` and `download_pdfs`. One link is a `Step`, one pass over a batch is `Batch`, the outer loop is `Rounds`, and a whole run is `DownloadPdfs`. `ProcessBatch` and `DownloadPdfsLoop` are the two loops of `download_pdfs` written as loops, each proved equal to the functional definition.

HEAD, GET and the search service are pure functions passed in as
parameters. The two loops of `pdf_crawler.py` need not terminate. The model gives
them budgets (`Fuel`), and a run that exhausts a budget ends with status
`OutOfFuel`.

The uncaught exceptions modelled are the following; each ends the run with `Aborted`:

- `urlparse` raising on unbalanced brackets;
- `parsedate_to_datetime` raising on a missing or unparsable Last-Modified header;
- `int()` raising on a non-numeric Content-Length.

## Model

| member | source | states |
|---|---|---|
| Urls.NetlocOfAbsoluteUrl | pdf_crawler.py:32-33 | `Netloc` (`urlparse(url).netloc`): for `scheme://netloc` followed by a path, query or fragment, with an ASCII `netloc` free of tab/CR/LF and of brackets, the network location is exactly `netloc`, user info and port included |
| Urls.NetlocHasNoDelimiter | pdf_crawler.py:32-33 | a network location never contains '/', '?' or '#' |
| Urls.StripLeadingMeaning | pdf_crawler.py:32 | `StripLeading` (the `lstrip` in `urlsplit`): URL parsing drops exactly the leading run of control characters and spaces |
| Urls.RemoveUnsafeLeavesNone | pdf_crawler.py:32 | `RemoveUnsafe` (the tab/CR/LF removal in `urlsplit`): after clean-up the URL holds no tab, CR or LF |
| Urls.RemoveUnsafeOfClean | pdf_crawler.py:32 | the clean-up leaves a URL that holds none of them unchanged |
| Urls.RemoveUnsafeAppend | pdf_crawler.py:32 | the clean-up works character by character and keeps the order: it distributes over concatenation and drops a single character exactly when it is a tab, CR or LF |
| Urls.AfterSchemeOf | pdf_crawler.py:32 | a valid scheme and its ':' are removed, and nothing else |
| Urls.IndexOfIs | pdf_crawler.py:32 | the first ':' is found at the unique index with no earlier ':' |
| Urls.NetlocEndIs | pdf_crawler.py:32-33 | the network location ends at the first '/', '?' or '#', or at the end of the text |
| Urls.LastSegment | pdf_crawler.py:49 | `split('/')[-1]` is a suffix of the URL, holds no '/', and is preceded by '/' unless it is the whole URL |
| Urls.JoinPath | pdf_crawler.py:49 | an absolute name is the result; otherwise the result is the directory, then a '/' exactly when the directory is non-empty and does not already end in '/', then the name |
| Dates.FormatDate | pdf_crawler.py:119 | `strftime("%Y%m%d")` of a calendar date is eight digits |
| Dates.ParseDate | pdf_crawler.py:119 | reading a date back succeeds exactly on eight-digit strings |
| Dates.PadDigitsRoundTrip | pdf_crawler.py:119 | zero-padded digits read back as the number |
| Dates.FormatDateRoundTrip | pdf_crawler.py:119 | the eight-digit date reads back as the date it came from |
| Dates.FormatDateInjective | pdf_crawler.py:119 | two dates render the same exactly when they are equal |
| Filters.AnySuffixMeaning | pdf_crawler.py:34 | the `any(... endswith ...)` scan is true exactly when some listed suffix ends the network location |
| Filters.IsValidDomainMeaning | pdf_crawler.py:31-34 | `IsValidDomain` (`is_valid_domain`): the domain check raises exactly when URL parsing does, and accepts exactly when the network location ends with an allowed suffix |
| Filters.EmptyAllowListRejects | pdf_crawler.py:34 | an empty allow-list accepts no URL |
| Filters.DotDeAllowList | pdf_crawler.py:31-34 | with [".de"], an absolute URL with an ASCII, bracket-free network location passes iff that network location (user info and port included) ends in ".de" |
| Filters.PortDefeatsDotDe | pdf_crawler.py:31-34 | a decimal port after an ASCII, bracket-free host makes the link fail even when the host ends in ".de", as in `https://example.de:443/a.pdf` |
| Filters.ContentTypeIsExact | pdf_crawler.py:36-37 | `IsValidPdf` (`is_valid_pdf`): only the exact string "application/pdf" passes; parameters, other casing and a missing header fail |
| Filters.ReportedSize | pdf_crawler.py:40 | reading Content-Length fails exactly on a non-numeric value |
| Filters.SizeCheckRule | pdf_crawler.py:39-41 | `IsBelowMaxSize` (`is_below_max_size`): a missing length counts as 0, the limit is inclusive, no limit passes, and a non-numeric length raises even without a limit |
| Filters.SizeCheckMonotone | pdf_crawler.py:39-41 | raising the limit never rejects a link that passed |
| Filters.CutoffRule | pdf_crawler.py:43-44 | `IsNewerThanCutoff` (`is_newer_than_cutoff`): no cutoff passes, the cutoff instant itself passes, and an earlier cutoff never rejects more |
| Manifest.InitCsv | pdf_crawler.py:22-26 | a missing manifest is created holding only the header; an existing one and all files are left alone |
| Manifest.InitCsvIdempotent | pdf_crawler.py:22-26 | initialising twice is the same as once |
| Manifest.AppendRow | pdf_crawler.py:52-54 | appending adds exactly one row at the end, creating the file if missing |
| Manifest.WriteFile | pdf_crawler.py:50-51 | the written path holds the body; no other path is added and every other file keeps its contents |
| Manifest.Record | pdf_crawler.py:48-54 | a download stores the body under its path, leaves every other file as it was, and appends `[url, path]` |
| Manifest.StoredFilenameShape | pdf_crawler.py:49 | `StoredFilename` (`filename` in `download_single_pdf`): the stored path is "out/", the eight-digit date, '_', then the last URL segment |
| Manifest.SameStoredFilename | pdf_crawler.py:49 | two downloads share a path exactly when date and last segment agree |
| Manifest.SameDayCollision | pdf_crawler.py:49 | two downloads share a path exactly when their Last-Modified days and last segments agree |
| Pipeline.RunChecksStopsAt | pdf_crawler.py:89-118 | when check k is the first to fail, the verdict is that check's outcome and exactly the first k checks ran |
| Pipeline.AllChecksPass | pdf_crawler.py:89-120 | every check passing means domain accepted, HEAD ok, exact type, parsed and recent Last-Modified, size within limit, GET ok |
| Pipeline.RunChecksSaves | pdf_crawler.py:119-122 | when every check passes, the link is saved under its dated path after all six checks |
| Pipeline.RunChecksFollowsChain | pdf_crawler.py:87-124 | `RunChecks` (the body of the `for` loop after `is_valid_domain`): the checks run in order; every check before the last passed; the first failure decides the outcome |
| Pipeline.ClassifyFollowsChain | pdf_crawler.py:87-124 | `Classify` (one iteration of the `for` loop): the same with the domain check answering for the URL |
| Pipeline.FollowsChainUnique | pdf_crawler.py:87-124 | two verdicts that follow the chain are equal |
| Pipeline.ChainDeterminesVerdict | pdf_crawler.py:87-124 | the chain fixes the verdict: any verdict following it is the computed one |
| Pipeline.RequestsAppend | pdf_crawler.py:95-120 | the requests of two runs of checks, one after the other, are concatenated |
| Pipeline.RequestsOfPrefix | pdf_crawler.py:95-120 | the first k checks issue no request, then HEAD, then HEAD and GET once the fetch ran |
| Pipeline.FollowedLength | pdf_crawler.py:89-124 | the chain gets past the domain check iff the domain is accepted, and reaches the GET iff the link is saved or its download fails |
| Pipeline.FollowedRequests | pdf_crawler.py:89-124 | a rejected domain costs no request; otherwise HEAD comes first; GET is issued iff the link is saved or its download fails |
| Pipeline.ChainRequests | pdf_crawler.py:89-124 | the same for the computed verdict |
| Pipeline.NetworkRequests | pdf_crawler.py:89-124 | the same with the domain check answering for the URL |
| Pipeline.SavedIffAccepted | pdf_crawler.py:89-122 | a link is saved iff the domain is accepted, HEAD succeeds, the type is exact, Last-Modified parses and is recent, the size fits and GET succeeds |
| Pipeline.SavedLinksMeetEveryFilter | pdf_crawler.py:89-122 | every saved link's network location (user info and port included) ends with an allowed suffix, and the link had the exact type, was recent enough and reported a size within the limit |
| Pipeline.MissingLastModifiedAborts | pdf_crawler.py:106-107 | once the type is accepted, a missing or unparsable Last-Modified aborts the run, with or without a cutoff |
| Pipeline.ProbeFailureSkips | pdf_crawler.py:94-99 | a failed HEAD skips the link before any header is read |
| Search.Paginate | pdf_crawler.py:61-73 | the result is the concatenated items of the pages it took, in page order |
| Search.PaginateStops | pdf_crawler.py:63-72 | every earlier page count fell short of the goal; it ends on its own only when the goal is met or a page lacks items; otherwise the budget ran out |
| Search.SearchPdfsUntilGoal | pdf_crawler.py:61-73 | `SearchUntilGoal` (`search_pdfs_until_goal`): the loop with start index 1, 11, 21, ... computes the pagination, with the stop conditions above |
| Search.NoGoalNoRequest | pdf_crawler.py:63 | the search ends on its own with a budget of zero requests iff the goal is not positive; the result is then empty whatever the budget |
| Search.ExhaustedSearchCompletes | pdf_crawler.py:66-67 | a page without items within the budget ends the search on its own, no later than that page |
| Search.EmptyPagesCollectNothing | pdf_crawler.py:68 | pages with empty item lists contribute nothing |
| Search.EmptyPagesNeverFinish | pdf_crawler.py:63-69 | a service that keeps returning empty item lists keeps the loop going past every budget |
| Downloader.Step | pdf_crawler.py:87-124 | one link either aborts the run (its verdict being the abort) or adds one progress line with its verdict and raises exactly one of the counters |
| Downloader.SaveKeepsAccounts | pdf_crawler.py:120-122 | `Save` (a successful `download_single_pdf` and its counters): a download keeps the counters, manifest rows and stored paths in step |
| Downloader.SkipKeepsAccounts | pdf_crawler.py:89-124 | `Skip` (`skipped_count += 1`): a skip keeps the counters, manifest rows and stored paths in step |
| Downloader.StepKeepsAccounts | pdf_crawler.py:87-124 | saved + skipped equals the lines; saved equals successful equals the new manifest rows; the files are the saved paths |
| Downloader.StepKeepsFaithful | pdf_crawler.py:87-124 | every progress line reports its link's verdict and none is an abort |
| Downloader.Batch | pdf_crawler.py:83-124 | the batch keeps the earlier lines and adds at most one per link; downloads never exceed `num_results` |
| Downloader.BatchInOrder | pdf_crawler.py:83-85 | lines follow the links in order; links are left unprocessed only once the goal is reached or a link aborted the run, that link being the next one |
| Downloader.BatchProgress | pdf_crawler.py:83-85 | a batch that starts short of the goal with links and does not abort reports at least one link |
| Downloader.BatchStopsAtGoal | pdf_crawler.py:84-85 | once `successful_downloads` reaches `num_results` no further link is processed: the batch's last line is the download that reached the goal |
| Downloader.BatchKeepsAccounts | pdf_crawler.py:83-124 | a batch keeps the bookkeeping |
| Downloader.BatchKeepsFaithful | pdf_crawler.py:83-124 | a batch keeps every line faithful |
| Downloader.ProcessBatch | pdf_crawler.py:83-124 | the `for` loop computes the batch |
| Downloader.Decide | pdf_crawler.py:126-130 | with the goal met it stops normally; short of it, a re-query that ends with nothing stops normally, one that ends with links goes on with exactly those links while rounds remain, and it stops out of fuel only when the re-query ran out of pages or no round remains |
| Downloader.Rounds | pdf_crawler.py:82-130 | the outer loop ends: normally only with the goal met or an empty re-query, by budget only short of the goal; downloads never exceed `num_results` |
| Downloader.RoundsKeepAccounts | pdf_crawler.py:82-130 | the outer loop keeps the bookkeeping |
| Downloader.RoundsKeepFaithful | pdf_crawler.py:82-130 | the outer loop keeps every line faithful |
| Downloader.RoundsSpendBudget | pdf_crawler.py:82-130 | the outer loop ends out of fuel only when a re-query ran out of pages or every round of the budget reported a link (one more when the first batch had links to process) |
| Downloader.DownloadPdfs | pdf_crawler.py:75-130 | a run ends; it never exceeds `num_results`; a normal end short of the goal means the last search found nothing |
| Downloader.DownloadSpendsBudget | pdf_crawler.py:75-130 | a run ends out of fuel only when the last search ran out of its page budget or the run reported at least one link per round of the budget |
| Downloader.DownloadKeepsAccounts | pdf_crawler.py:75-130 | a whole run keeps the bookkeeping and every line faithful |
| Downloader.DownloadPdfsLoop | pdf_crawler.py:75-130 | the two nested loops compute the run |
| Downloader.Crawl | pdf_crawler.py:154-155 | a crawler run ends and never exceeds `num_results` downloads |
| Downloader.CrawlAccounts | pdf_crawler.py:20-130 | after a run: saved + skipped = lines; saved = successful = new rows; one header, then earlier rows, then one row per download in order; a file per saved path |
| Downloader.ManifestAcrossRuns | pdf_crawler.py:22-26 | two runs over one store leave a single header followed by both runs' rows in order |
| Downloader.CrawlReportsVerdicts | pdf_crawler.py:87-124 | each line of a crawler run is the filter chain's verdict on its link, never an abort |
| Downloader.SavedReportsPassFilters | pdf_crawler.py:77-122 | each link a crawler run reports as saved met every filter with the allow-list [".de"] |
| Downloader.UnproductiveBatch | pdf_crawler.py:83-124 | a batch with no savable link only skips: no new download, the run goes on |
| Downloader.StalledRounds | pdf_crawler.py:126-130 | when a batch is unproductive and the re-query returns the same links, the loop never ends |
| Downloader.UnproductiveFirstBatchNeverFinishes | pdf_crawler.py:78-130 | a non-empty first search with no savable link makes `download_pdfs` run past every budget |

## Left out

- The Google API client (`build`, `cse().list().execute()`), `requests.head` and `requests.get` are oracles given as parameters. Each is deterministic: the same query gets the same answer.
- Writing to the disk is a map from path to bytes, and `os.makedirs('out')` is not modelled. The paths are only values.
- CSV quoting of fields is not modelled: a row is the pair `[url, filename]`.
- The `print` output is modelled as the progress log (`Report` lines); the message texts and the final totals are not.
- The command line (`OptionParser`, `strptime` of the cutoff date, `exit(1)`) and `datetime.timestamp` are not modelled. The cutoff is an integer instant, or None.
- HTTP-date parsing is not modelled: a Last-Modified header is either an instant with its calendar day, or unparsable. Float timestamps and time zones are not modelled.
- `item['link']` raising KeyError on a search item without a link is not modelled: items are their links.
- `num_results=None` makes `pdf_crawler.py` raise TypeError at its first comparison (line 63); the model takes an integer goal.
- `urlparse` is modelled only as far as the network location goes. The validation of bracketed hosts is reduced to the balanced-bracket check: a bracketed host that is not an IP literal is accepted where `urlsplit` raises ValueError.
- A write or append that raises OSError (pdf_crawler.py:50-54), such as a last URL segment longer than the file-name limit, ends the run, possibly after the file was written and before its manifest row; the `except` at pdf_crawler.py:57 catches only `RequestException`. The model's writes (`Manifest.WriteFile`, `Manifest.Record`, `Downloader.Save`) always succeed.
- Urls.NetlocOfAbsoluteUrl: holds for ASCII network locations without brackets only. A bracketed host that is not an IP literal, such as `[foo].de` or `u[x]@a.de`, makes `urlsplit` raise ValueError, while `Urls.Netloc` checks only that brackets are balanced and returns it. For a non-ASCII network location, `urlsplit` applies an NFKC check and raises ValueError when the normalised form gains '/', '?', '#', '@' or ':'. Unicode normalisation is not modelled, so `Urls.Netloc` returns such a network location instead of failing.
- Filters.DotDeAllowList: holds for ASCII network locations without brackets only, for the reasons given for `Urls.NetlocOfAbsoluteUrl`.
- Filters.PortDefeatsDotDe: holds for ASCII hosts without brackets only, for the reasons given for `Urls.NetlocOfAbsoluteUrl`.
- Dates.FormatDate: renders every year with four digits, as Python's own `%Y` does. Platforms whose `strftime` does not pad years below 1000 are not modelled.
- Downloader.Rounds: the outer loop gets a budget of rounds, and each search gets a budget of page requests. A run that exhausts either ends with `OutOfFuel` (`RoundsSpendBudget`, `DownloadSpendsBudget`). `pdf_crawler.py` has no such bound and can loop forever (`StalledRounds`, `EmptyPagesNeverFinish`).
- A failed search request and a page without items both stop the search loop quietly, as `search_pdfs_until_goal` does (pdf_crawler.py:66-72). The error message is not modelled.
- A missing or unparsable Last-Modified header aborts the run: `parsedate_to_datetime` is called at pdf_crawler.py:106, whether or not a cutoff is set, with `''` when the header is missing, and nothing catches what it raises (`Pipeline.MissingLastModifiedAborts`).

=== FILE: common.dfy ===
/** Shared vocabulary of the crawler model: optional values and raw response bytes. */
module Common {

  /** A value that may be absent, as a header that was not sent or a setting left unset. */
  datatype Option<+T> = None | Some(value: T) {

    /** The carried value, or `default` when there is none. */
    function GetOr(default: T): T {
      if Some? then value else default
    }
  }

  /** One octet of a downloaded body. */
  newtype Byte = b: int | 0 <= b < 256

  type Bytes = seq<Byte>
}

=== FILE: dates.dfy ===
/**
 * Calendar dates and the "%Y%m%d" rendering used as the prefix of a stored
 * file name, with its inverse.
 */
module Dates {
  import opened Common

  datatype Date = Date(year: int, month: int, day: int)

  predicate IsLeapYear(y: int) {
    y % 4 == 0 && (y % 100 != 0 || y % 400 == 0)
  }

  function DaysInMonth(y: int, m: int): int
    requires 1 <= m <= 12
  {
    if m == 2 then (if IsLeapYear(y) then 29 else 28)
    else if m == 4 || m == 6 || m == 9 || m == 11 then 30
    else 31
  }

  /** The dates a `datetime` can hold: years 1 to 9999 of the proleptic Gregorian calendar. */
  predicate IsCalendarDate(d: Date) {
    1 <= d.year <= 9999 && 1 <= d.month <= 12 && 1 <= d.day <= DaysInMonth(d.year, d.month)
  }

  type CalendarDate = d: Date | IsCalendarDate(d) witness Date(1970, 1, 1)

  function Pow10(n: nat): nat {
    if n == 0 then 1 else 10 * Pow10(n - 1)
  }

  predicate IsDigit(c: char) {
    '0' <= c <= '9'
  }

  predicate AllDigits(s: string) {
    forall k :: 0 <= k < |s| ==> IsDigit(s[k])
  }

  function Digit(n: nat): (c: char)
    requires n < 10
    ensures IsDigit(c)
  {
    ('0' as int + n) as char
  }

  function DigitValue(c: char): nat
    requires IsDigit(c)
  {
    c as int - '0' as int
  }

  /** The decimal digits of `n`, left-padded with zeros to exactly `width` characters. */
  function PadDigits(n: nat, width: nat): (s: string)
    requires n < Pow10(width)
    ensures |s| == width
    ensures AllDigits(s)
    decreases width
  {
    if width == 0 then [] else PadDigits(n / 10, width - 1) + [Digit(n % 10)]
  }

  /** The number a string of decimal digits denotes. */
  function ValueOf(s: string): nat
    requires AllDigits(s)
    decreases |s|
  {
    if s == [] then 0 else 10 * ValueOf(s[..|s| - 1]) + DigitValue(s[|s| - 1])
  }

  /** Reading back the padded digits of `n` gives `n`. */
  lemma {:induction false} PadDigitsRoundTrip(n: nat, width: nat)
    requires n < Pow10(width)
    ensures ValueOf(PadDigits(n, width)) == n
  {
    if width > 0 {
      var s := PadDigits(n, width);
      assert s[..|s| - 1] == PadDigits(n / 10, width - 1);
      PadDigitsRoundTrip(n / 10, width - 1);
    }
  }

  /** `strftime("%Y%m%d")`: four-digit year, two-digit month, two-digit day. */
  function FormatDate(d: CalendarDate): (s: string)
    ensures |s| == 8
    ensures AllDigits(s)
  {
    PadDigits(d.year, 4) + PadDigits(d.month, 2) + PadDigits(d.day, 2)
  }

  /** Reads an eight-digit "YYYYMMDD" string back into its date. */
  function ParseDate(s: string): (r: Option<Date>)
    ensures r.Some? <==> |s| == 8 && AllDigits(s)
  {
    if |s| == 8 && AllDigits(s) then
      Some(Date(ValueOf(s[..4]), ValueOf(s[4..6]), ValueOf(s[6..])))
    else
      None
  }

  /** The formatted date reads back as the date it was made from. */
  lemma FormatDateRoundTrip(d: CalendarDate)
    ensures ParseDate(FormatDate(d)) == Some(d)
  {
    var y, m, dd := PadDigits(d.year, 4), PadDigits(d.month, 2), PadDigits(d.day, 2);
    var s := FormatDate(d);
    assert s[..4] == y && s[4..6] == m && s[6..] == dd;
    PadDigitsRoundTrip(d.year, 4);
    PadDigitsRoundTrip(d.month, 2);
    PadDigitsRoundTrip(d.day, 2);
  }

  /** Two dates render the same exactly when they are the same date. */
  lemma FormatDateInjective(d1: CalendarDate, d2: CalendarDate)
    ensures FormatDate(d1) == FormatDate(d2) <==> d1 == d2
  {
    FormatDateRoundTrip(d1);
    FormatDateRoundTrip(d2);
  }
}

=== FILE: downloader.dfy ===
/**
 * `download_pdfs`: walk the candidate links one by one through the filter
 * chain, keeping saved/skipped counters and the manifest, and re-query the
 * search for more links while fewer than `num_results` were downloaded.
 * HEAD, GET and the search service are oracles; the loops, which need not
 * terminate in `pdf_crawler.py`, carry explicit budgets.
 */
module Downloader {
  import opened Common
  import opened Filters
  import opened Pipeline
  import Manifest
  import Search

  /** The allow-list `download_pdfs` passes to the domain check. */
  const AllowedTlds: seq<string> := [".de"]

  /** What HEAD and GET return for each URL. */
  datatype Net = Net(head: string -> Probe, get: string -> Fetch)

  /**
   * Where a run stands: still processing, finished normally, ended by an
   * uncaught exception, or stopped by the model's budget.
   */
  datatype Status = Running | Finished | Aborted(reason: AbortReason) | OutOfFuel

  /** One progress line: the link and how it ended. */
  datatype Report = Report(url: string, outcome: Outcome)

  /** The loop variables of `download_pdfs`, the store, and the progress lines printed so far. */
  datatype RunState = RunState(
    saved: nat,
    skipped: nat,
    successful: nat,
    store: Manifest.Store,
    log: seq<Report>,
    status: Status)

  /** Budgets: outer rounds of `download_pdfs` and page requests per search. */
  datatype Fuel = Fuel(rounds: nat, pages: nat)

  /** `num_results` as a bound on downloads: a negative goal allows none. */
  function Target(cfg: Config): nat {
    if cfg.numResults < 0 then 0 else cfg.numResults
  }

  /**
   * What the loops need to know about the world: the configuration, the
   * outcome the filter chain reaches for each link, and the GET oracle whose
   * body is stored for a saved link.
   */
  datatype Env = Env(cfg: Config, verdict: string -> Outcome, get: string -> Fetch)

  /** The verdict of the filter chain for `url` under the fixed allow-list. */
  function Judge(cfg: Config, net: Net, url: string): Verdict {
    Classify(cfg, AllowedTlds, url, net.head(url), net.get(url))
  }

  /** The environment of `download_pdfs`: every link is judged by the filter chain. */
  function EnvOf(cfg: Config, net: Net): (e: Env)
    ensures e.cfg == cfg && e.get == net.get
  {
    Env(cfg, url => Judge(cfg, net, url).outcome, net.get)
  }

  /** The environment's verdict on a link is the filter chain's outcome for it. */
  lemma EnvOfJudges(cfg: Config, net: Net, url: string)
    ensures EnvOf(cfg, net).verdict(url) == Judge(cfg, net, url).outcome
  {
  }

  /** The body of a successful GET (empty for a failed one, which is never stored). */
  function Body(fetch: Fetch): Bytes {
    if fetch.GetOk? then fetch.body else []
  }

  /** The fresh state at the start of `download_pdfs`. */
  function Start(store: Manifest.Store): RunState {
    RunState(0, 0, 0, store, [], Running)
  }

  /** The manifest rows the saved reports of `log` appended, in order. */
  function SavedRows(log: seq<Report>): seq<Manifest.Row> {
    if log == [] then []
    else
      var last := log[|log| - 1];
      SavedRows(log[..|log| - 1]) + (if last.outcome.Saved? then [Manifest.Row(last.url, last.outcome.path)] else [])
  }

  /** The paths the saved reports of `log` were written to. */
  function SavedPaths(log: seq<Report>): set<string> {
    if log == [] then {}
    else
      var last := log[|log| - 1];
      SavedPaths(log[..|log| - 1]) + (if last.outcome.Saved? then {last.outcome.path} else {})
  }

  /**
   * The bookkeeping invariant against the store the run started from: every
   * progress line counted exactly once as saved or skipped, `saved` equal to
   * `successful_downloads`, one manifest row and one file per saved line.
   */
  predicate Accounted(st: RunState, base: Manifest.Store) {
    && st.saved + st.skipped == |st.log|
    && st.saved == st.successful == |SavedRows(st.log)|
    && Manifest.Rows(st.store) == Manifest.Rows(base) + SavedRows(st.log)
    && (st.store.manifest.Some? <==> base.manifest.Some? || st.saved > 0)
    && st.store.files.Keys == base.files.Keys + SavedPaths(st.log)
  }

  /** Every progress line reports the verdict for its link; aborts print none. */
  predicate Faithful(env: Env, log: seq<Report>) {
    forall i :: 0 <= i < |log| ==> log[i].outcome == env.verdict(log[i].url) && !log[i].outcome.Abort?
  }

  /**
   * One iteration of the inner loop: classify the link, then count it as saved
   * (storing the file and its manifest row) or skipped, or end the run.
   */
  function Step(env: Env, st: RunState, url: string): (r: RunState)
    requires st.status == Running
    ensures r.status == Running || r.status.Aborted?
    ensures r.status.Aborted? ==> r == st.(status := r.status) && env.verdict(url) == Abort(r.status.reason)
    ensures r.status == Running ==> r.log == st.log + [Report(url, env.verdict(url))]
    ensures r.status == Running ==>
      || (r.saved == st.saved + 1 && r.successful == st.successful + 1 && r.skipped == st.skipped)
      || (r.saved == st.saved && r.successful == st.successful && r.skipped == st.skipped + 1)
  {
    match env.verdict(url)
    case Abort(reason) => st.(status := Aborted(reason))
    case Saved(path) => Save(st, url, path, Body(env.get(url)))
    case other => Skip(st, url, other)
  }

  /** A saved link: both counters up, the file and its manifest row stored, the line printed. */
  function Save(st: RunState, url: string, path: string, body: Bytes): RunState {
    st.(saved := st.saved + 1, successful := st.successful + 1,
        store := Manifest.Record(st.store, url, path, body),
        log := st.log + [Report(url, Saved(path))])
  }

  /** A skipped link: the skip counter up, the line printed. */
  function Skip(st: RunState, url: string, outcome: Outcome): RunState {
    st.(skipped := st.skipped + 1, log := st.log + [Report(url, outcome)])
  }

  /** Appending one line extends the saved rows and paths by that line's, if it saved. */
  lemma SavedRowsSnoc(log: seq<Report>, x: Report)
    ensures SavedRows(log + [x]) == SavedRows(log) + (if x.outcome.Saved? then [Manifest.Row(x.url, x.outcome.path)] else [])
    ensures SavedPaths(log + [x]) == SavedPaths(log) + (if x.outcome.Saved? then {x.outcome.path} else {})
  {
    assert (log + [x])[..|log|] == log;
  }

  /** The bookkeeping after saving `url` to `path`. */
  lemma SaveKeepsAccounts(st: RunState, url: string, path: string, body: Bytes, base: Manifest.Store)
    requires Accounted(st, base)
    ensures Accounted(Save(st, url, path, body), base)
  {
    SavedRowsSnoc(st.log, Report(url, Saved(path)));
  }

  /** The bookkeeping after skipping `url`. */
  lemma SkipKeepsAccounts(st: RunState, url: string, o: Outcome, base: Manifest.Store)
    requires Accounted(st, base) && !o.Saved?
    ensures Accounted(Skip(st, url, o), base)
  {
    SavedRowsSnoc(st.log, Report(url, o));
  }

  /** A step keeps the bookkeeping: counters, manifest rows and stored files. */
  lemma StepKeepsAccounts(env: Env, st: RunState, url: string, base: Manifest.Store)
    requires st.status == Running && Accounted(st, base)
    ensures Accounted(Step(env, st, url), base)
  {
    match env.verdict(url)
    case Abort(_) =>
    case Saved(path) =>
      assert Step(env, st, url) == Save(st, url, path, Body(env.get(url)));
      SaveKeepsAccounts(st, url, path, Body(env.get(url)), base);
    case other =>
      assert Step(env, st, url) == Skip(st, url, other);
      SkipKeepsAccounts(st, url, other, base);
  }

  /** A step keeps every progress line faithful to its link's verdict. */
  lemma StepKeepsFaithful(env: Env, st: RunState, url: string)
    requires st.status == Running && Faithful(env, st.log)
    ensures Faithful(env, Step(env, st, url).log)
  {
    var r := Step(env, st, url);
    if r.status == Running {
      assert r.log[|st.log|] == Report(url, env.verdict(url));
    }
  }

  /**
   * The inner `for` loop over one batch of links: it stops early once
   * `successful_downloads` reaches `num_results`, and an uncaught exception
   * ends the whole run.
   */
  function Batch(env: Env, st: RunState, items: seq<string>): (r: RunState)
    requires st.status == Running
    ensures r.status == Running || r.status.Aborted?
    ensures |st.log| <= |r.log| <= |st.log| + |items| && r.log[..|st.log|] == st.log
    ensures st.successful <= Target(env.cfg) ==> r.successful <= Target(env.cfg)
    decreases |items|
  {
    if items == [] || st.successful >= env.cfg.numResults then st
    else
      var next := Step(env, st, items[0]);
      if next.status != Running then next
      else
        var r := Batch(env, next, items[1..]);
        assert r.log[..|st.log|] == r.log[..|next.log|][..|st.log|];
        r
  }

  /**
   * The batch reports its links in order, one line each, and leaves links
   * unprocessed only once `num_results` is reached or when a link ends the
   * run, which is then the link after the last reported one.
   */
  lemma {:induction false} BatchInOrder(env: Env, st: RunState, items: seq<string>)
    requires st.status == Running
    ensures var r := Batch(env, st, items);
      && (forall i :: |st.log| <= i < |r.log| ==> r.log[i].url == items[i - |st.log|])
      && (r.status == Running && |r.log| < |st.log| + |items| ==> r.successful >= env.cfg.numResults)
      && (r.status.Aborted? ==>
            |r.log| < |st.log| + |items| && env.verdict(items[|r.log| - |st.log|]) == Abort(r.status.reason))
    decreases |items|
  {
    if items != [] && st.successful < env.cfg.numResults {
      var next := Step(env, st, items[0]);
      if next.status == Running {
        BatchInOrder(env, next, items[1..]);
        var r := Batch(env, next, items[1..]);
        assert Batch(env, st, items) == r;
        assert |next.log| == |st.log| + 1;
        forall i | |st.log| <= i < |r.log|
          ensures r.log[i].url == items[i - |st.log|]
        {
          if i == |st.log| {
            assert r.log[i] == r.log[..|next.log|][i] == next.log[i];
          } else {
            assert items[1..][i - |next.log|] == items[i - |st.log|];
          }
        }
        if r.status.Aborted? {
          assert items[1..][|r.log| - |next.log|] == items[|r.log| - |st.log|];
        }
      } else {
        assert Batch(env, st, items) == next;
      }
    }
  }

  /** The batch keeps the bookkeeping. */
  lemma {:induction false} BatchKeepsAccounts(env: Env, st: RunState, items: seq<string>, base: Manifest.Store)
    requires st.status == Running && Accounted(st, base)
    ensures Accounted(Batch(env, st, items), base)
    decreases |items|
  {
    if items != [] && st.successful < env.cfg.numResults {
      StepKeepsAccounts(env, st, items[0], base);
      var next := Step(env, st, items[0]);
      if next.status == Running {
        BatchKeepsAccounts(env, next, items[1..], base);
      }
    }
  }

  /** The batch keeps every progress line faithful to its link's verdict. */
  lemma {:induction false} BatchKeepsFaithful(env: Env, st: RunState, items: seq<string>)
    requires st.status == Running && Faithful(env, st.log)
    ensures Faithful(env, Batch(env, st, items).log)
    decreases |items|
  {
    if items != [] && st.successful < env.cfg.numResults {
      StepKeepsFaithful(env, st, items[0]);
      var next := Step(env, st, items[0]);
      if next.status == Running {
        BatchKeepsFaithful(env, next, items[1..]);
      }
    }
  }

  /**
   * The inner loop of `download_pdfs`, one link per iteration; it
   * computes exactly the batch.
   */
  method ProcessBatch(env: Env, st: RunState, items: seq<string>) returns (r: RunState)
    requires st.status == Running
    ensures r == Batch(env, st, items)
  {
    r := st;
    for i := 0 to |items|
      invariant r.status == Running
      invariant Batch(env, r, items[i..]) == Batch(env, st, items)
    {
      if r.successful >= env.cfg.numResults {
        break;
      }
      var next := Step(env, r, items[i]);
      if next.status != Running {
        return next;
      }
      assert items[i..][1..] == items[i + 1..];
      r := next;
    }
  }

  /** What the end of an outer iteration decides: stop with a status, or go on with new links. */
  datatype Next = Stop(status: Status) | Again(items: seq<string>)

  /**
   * The end of one outer iteration: stop once `num_results` links were
   * downloaded; otherwise search again for the shortfall, stop if that
   * returns nothing, and else go on with the new links.
   */
  function Decide(env: Env, search: int -> Search.Pagination, b: RunState, rounds: nat): (d: Next)
    ensures d.Stop? ==> d.status == Finished || d.status == OutOfFuel
    ensures d == Stop(Finished) ==>
      b.successful >= env.cfg.numResults || (search(env.cfg.numResults - b.successful).complete && search(env.cfg.numResults - b.successful).items == [])
    ensures d == Stop(OutOfFuel) ==> b.successful < env.cfg.numResults
    ensures b.successful >= env.cfg.numResults ==> d == Stop(Finished)
    ensures var q := search(env.cfg.numResults - b.successful);
      b.successful < env.cfg.numResults && q.complete && q.items == [] ==> d == Stop(Finished)
    ensures var q := search(env.cfg.numResults - b.successful);
      b.successful < env.cfg.numResults && q.complete && q.items != [] && rounds > 0 ==> d == Again(q.items)
    ensures d == Stop(OutOfFuel) ==> !search(env.cfg.numResults - b.successful).complete || rounds == 0
    ensures d.Again? ==> rounds > 0 && b.successful < env.cfg.numResults && d.items != [] && search(env.cfg.numResults - b.successful) == Search.Pagination(d.items, search(env.cfg.numResults - b.successful).pages, true)
  {
    if b.successful >= env.cfg.numResults then Stop(Finished)
    else
      var q := search(env.cfg.numResults - b.successful);
      if !q.complete || (q.items != [] && rounds == 0) then Stop(OutOfFuel)
      else if q.items == [] then Stop(Finished)
      else Again(q.items)
  }

  /**
   * The outer `while` loop: process the batch, then stop on an abort or as
   * `Decide` says, or go round again. `search` answers a search for a goal;
   * `rounds` bounds the number of re-queries.
   */
  function Rounds(env: Env, search: int -> Search.Pagination, st: RunState, items: seq<string>, rounds: nat): (r: RunState)
    requires st.status == Running
    ensures r.status != Running
    ensures |st.log| <= |r.log| && r.log[..|st.log|] == st.log
    ensures st.successful <= Target(env.cfg) ==> r.successful <= Target(env.cfg)
    ensures r.status == Finished && r.successful < env.cfg.numResults ==>
      search(env.cfg.numResults - r.successful).complete && search(env.cfg.numResults - r.successful).items == []
    ensures r.status == OutOfFuel ==> r.successful < env.cfg.numResults
    decreases rounds
  {
    var b := Batch(env, st, items);
    if b.status != Running then b
    else
      match Decide(env, search, b, rounds)
      case Stop(s) => b.(status := s)
      case Again(next) =>
        var r := Rounds(env, search, b, next, rounds - 1);
        assert r.log[..|st.log|] == r.log[..|b.log|][..|st.log|];
        r
  }

  /**
   * A batch that starts short of `num_results` with links to process and
   * leaves the run going reports at least one of them.
   */
  lemma BatchProgress(env: Env, st: RunState, items: seq<string>)
    requires st.status == Running
    ensures var r := Batch(env, st, items);
      r.status == Running && items != [] && st.successful < env.cfg.numResults ==> |r.log| > |st.log|
  {
    if items != [] && st.successful < env.cfg.numResults {
      var next := Step(env, st, items[0]);
      if next.status == Running {
        assert Batch(env, st, items) == Batch(env, next, items[1..]);
      }
    }
  }

  /** A step taken short of the goal that reaches it was a download. */
  lemma StepReachingGoalSaves(env: Env, st: RunState, url: string)
    requires st.status == Running && st.successful < env.cfg.numResults
    ensures var next := Step(env, st, url);
      next.status == Running && next.successful >= env.cfg.numResults ==> next.log[|next.log| - 1].outcome.Saved?
  {
    var next := Step(env, st, url);
    if next.status == Running {
      assert next.log[|next.log| - 1] == Report(url, env.verdict(url));
    }
  }

  /**
   * Once `successful_downloads` reaches `num_results` no further link is
   * processed: if a batch ends with the goal reached and reported anything,
   * its last line is the download that reached it.
   */
  lemma {:induction false} BatchStopsAtGoal(env: Env, st: RunState, items: seq<string>)
    requires st.status == Running
    ensures var r := Batch(env, st, items);
      r.status == Running && r.successful >= env.cfg.numResults && |r.log| > |st.log| ==>
        r.log[|r.log| - 1].outcome.Saved?
    decreases |items|
  {
    if items != [] && st.successful < env.cfg.numResults {
      var next := Step(env, st, items[0]);
      if next.status == Running {
        BatchStopsAtGoal(env, next, items[1..]);
        var r := Batch(env, next, items[1..]);
        assert Batch(env, st, items) == r;
        if |r.log| == |next.log| && r.successful >= env.cfg.numResults {
          BatchProgress(env, next, items[1..]);
          assert r == next;
          StepReachingGoalSaves(env, st, items[0]);
        }
      }
    }
  }

  /** Changing only the status keeps the bookkeeping. */
  lemma StatusKeepsAccounts(st: RunState, status: Status, base: Manifest.Store)
    requires Accounted(st, base)
    ensures Accounted(st.(status := status), base)
  {
  }

  /** The rounds keep the bookkeeping. */
  lemma {:induction false} RoundsKeepAccounts(env: Env, search: int -> Search.Pagination, st: RunState, items: seq<string>, rounds: nat, base: Manifest.Store)
    requires st.status == Running && Accounted(st, base)
    ensures Accounted(Rounds(env, search, st, items, rounds), base)
    decreases rounds
  {
    BatchKeepsAccounts(env, st, items, base);
    var b := Batch(env, st, items);
    if b.status == Running {
      match Decide(env, search, b, rounds)
      case Stop(s) => StatusKeepsAccounts(b, s, base);
      case Again(next) => RoundsKeepAccounts(env, search, b, next, rounds - 1, base);
    }
  }

  /** The rounds keep every progress line faithful to its link's verdict. */
  lemma {:induction false} RoundsKeepFaithful(env: Env, search: int -> Search.Pagination, st: RunState, items: seq<string>, rounds: nat)
    requires st.status == Running && Faithful(env, st.log)
    ensures Faithful(env, Rounds(env, search, st, items, rounds).log)
    decreases rounds
  {
    BatchKeepsFaithful(env, st, items);
    var b := Batch(env, st, items);
    if b.status == Running {
      match Decide(env, search, b, rounds)
      case Stop(s) =>
      case Again(next) => RoundsKeepFaithful(env, search, b, next, rounds - 1);
    }
  }

  /**
   * The rounds end out of fuel only when a search ran out of pages or the
   * budget of rounds is spent: every round of the budget then reported a
   * link, and one more if the first batch had links to process.
   */
  lemma {:induction false} RoundsSpendBudget(env: Env, search: int -> Search.Pagination, st: RunState, items: seq<string>, rounds: nat)
    requires st.status == Running
    ensures var r := Rounds(env, search, st, items, rounds);
      r.status == OutOfFuel ==>
        !search(env.cfg.numResults - r.successful).complete ||
        |r.log| >= |st.log| + rounds + (if items != [] && st.successful < env.cfg.numResults then 1 else 0)
    decreases rounds
  {
    BatchProgress(env, st, items);
    var b := Batch(env, st, items);
    var extra := if items != [] && st.successful < env.cfg.numResults then 1 else 0;
    if b.status == Running {
      assert |b.log| >= |st.log| + extra;
      var d := Decide(env, search, b, rounds);
      if d.Again? {
        RoundsSpendBudget(env, search, b, d.items, rounds - 1);
        var r := Rounds(env, search, b, d.items, rounds - 1);
        assert Rounds(env, search, st, items, rounds) == r;
        assert d.items != [] && b.successful < env.cfg.numResults;
        assert r.status == OutOfFuel ==>
          !search(env.cfg.numResults - r.successful).complete || |r.log| >= |b.log| + rounds;
      } else {
        assert Rounds(env, search, st, items, rounds) == b.(status := d.status);
        assert d.status == OutOfFuel ==> !search(env.cfg.numResults - b.successful).complete || rounds == 0;
      }
    } else {
      assert Rounds(env, search, st, items, rounds) == b;
    }
  }

  /** The search service as `download_pdfs` uses it: a search for a goal with a page budget. */
  function SearchWith(page: int -> Search.Page, pages: nat): (search: int -> Search.Pagination)
    ensures forall goal :: search(goal) == Search.SearchUntilGoal(page, goal, pages)
  {
    goal => Search.SearchUntilGoal(page, goal, pages)
  }

  /** `download_pdfs`: the initial search for `num_results` links, then the rounds. */
  function DownloadPdfs(env: Env, page: int -> Search.Page, store: Manifest.Store, fuel: Fuel): (r: RunState)
    ensures r.status != Running
    ensures r.successful <= Target(env.cfg)
    ensures r.status == Finished && r.successful < env.cfg.numResults ==>
      var q := Search.SearchUntilGoal(page, env.cfg.numResults - r.successful, fuel.pages);
      q.complete && q.items == []
  {
    var search := SearchWith(page, fuel.pages);
    var q := search(env.cfg.numResults);
    var r := if !q.complete then Start(store).(status := OutOfFuel)
      else Rounds(env, search, Start(store), q.items, fuel.rounds);
    assert search(env.cfg.numResults - r.successful) == Search.SearchUntilGoal(page, env.cfg.numResults - r.successful, fuel.pages);
    r
  }

  /** The whole of `download_pdfs` keeps the bookkeeping against the store it started from. */
  lemma DownloadKeepsAccounts(env: Env, page: int -> Search.Page, store: Manifest.Store, fuel: Fuel)
    ensures Accounted(DownloadPdfs(env, page, store, fuel), store)
    ensures Faithful(env, DownloadPdfs(env, page, store, fuel).log)
  {
    var search := SearchWith(page, fuel.pages);
    var q := search(env.cfg.numResults);
    if q.complete {
      RoundsKeepAccounts(env, search, Start(store), q.items, fuel.rounds, store);
      RoundsKeepFaithful(env, search, Start(store), q.items, fuel.rounds);
    }
  }

  /**
   * A run ends out of fuel only when a search ran out of its page budget or
   * the run reported at least one link per round of the budget.
   */
  lemma DownloadSpendsBudget(env: Env, page: int -> Search.Page, store: Manifest.Store, fuel: Fuel)
    ensures var r := DownloadPdfs(env, page, store, fuel);
      r.status == OutOfFuel ==>
        !Search.SearchUntilGoal(page, env.cfg.numResults - r.successful, fuel.pages).complete || |r.log| >= fuel.rounds
  {
    var q := Search.SearchUntilGoal(page, env.cfg.numResults, fuel.pages);
    var search := SearchWith(page, fuel.pages);
    var r := DownloadPdfs(env, page, store, fuel);
    RunShape(env, page, store, fuel);
    if q.complete {
      RoundsFromStartSpend(env, search, store, q.items, fuel.rounds);
    }
    assert search(env.cfg.numResults - r.successful) == Search.SearchUntilGoal(page, env.cfg.numResults - r.successful, fuel.pages);
  }

  /** `RoundsSpendBudget` for rounds that start a run. */
  lemma RoundsFromStartSpend(env: Env, search: int -> Search.Pagination, store: Manifest.Store, items: seq<string>, rounds: nat)
    ensures var r := Rounds(env, search, Start(store), items, rounds);
      r.status == OutOfFuel ==> !search(env.cfg.numResults - r.successful).complete || |r.log| >= rounds
  {
    RoundsSpendBudget(env, search, Start(store), items, rounds);
  }

  /**
   * A run whose first search is cut off ends out of fuel at once; otherwise
   * it is the rounds over that search's links.
   */
  lemma RunShape(env: Env, page: int -> Search.Page, store: Manifest.Store, fuel: Fuel)
    ensures var q := Search.SearchUntilGoal(page, env.cfg.numResults, fuel.pages);
      DownloadPdfs(env, page, store, fuel)
        == if !q.complete then Start(store).(status := OutOfFuel)
           else Rounds(env, SearchWith(page, fuel.pages), Start(store), q.items, fuel.rounds)
  {
  }

  /**
   * `download_pdfs` written with its two loops; it computes
   * exactly the functional definition.
   */
  method DownloadPdfsLoop(env: Env, page: int -> Search.Page, store: Manifest.Store, fuel: Fuel) returns (r: RunState)
    ensures r == DownloadPdfs(env, page, store, fuel)
  {
    var search := SearchWith(page, fuel.pages);
    var q := search(env.cfg.numResults);
    r := Start(store);
    if !q.complete {
      r := r.(status := OutOfFuel);
      return;
    }
    var items := q.items;
    var rounds := fuel.rounds;
    while true
      invariant r.status == Running
      invariant Rounds(env, search, r, items, rounds) == DownloadPdfs(env, page, store, fuel)
      decreases rounds
    {
      r := ProcessBatch(env, r, items);
      if r.status != Running {
        return;
      }
      match Decide(env, search, r, rounds)
      case Stop(status) =>
        r := r.(status := status);
        return;
      case Again(next) =>
        items := next;
        rounds := rounds - 1;
    }
  }

  /**
   * A crawler run: the constructor's `init_csv`, then `download_pdfs`. The
   * crawler's own environment is `EnvOf(cfg, net)`, which judges every link
   * by the filter chain against the allow-list [".de"].
   */
  function Crawl(env: Env, page: int -> Search.Page, store: Manifest.Store, fuel: Fuel): (r: RunState)
    ensures r.status != Running
    ensures r.successful <= Target(env.cfg)
  {
    DownloadPdfs(env, page, Manifest.InitCsv(store), fuel)
  }

  /**
   * What a crawler run leaves behind: every progress line counted once, the
   * manifest holding one header (written only if the file was new) followed
   * by the rows of the earlier runs and one row per saved line, a file per
   * saved path, and every line reporting the environment's verdict.
   */
  lemma CrawlAccounts(env: Env, page: int -> Search.Page, store: Manifest.Store, fuel: Fuel)
    ensures var r := Crawl(env, page, store, fuel);
      && r.saved + r.skipped == |r.log|
      && r.saved == r.successful == |SavedRows(r.log)|
      && r.store.manifest.Some?
      && Manifest.Rows(r.store) == (if store.manifest.None? then [Manifest.Header] else Manifest.Rows(store)) + SavedRows(r.log)
      && r.store.files.Keys == store.files.Keys + SavedPaths(r.log)
      && Faithful(env, r.log)
  {
    DownloadKeepsAccounts(env, page, Manifest.InitCsv(store), fuel);
  }

  /** Two runs over one store: a single header, then the rows of both runs in order. */
  lemma ManifestAcrossRuns(env: Env, page: int -> Search.Page, store: Manifest.Store, fuel1: Fuel, fuel2: Fuel)
    requires store.manifest.None?
    ensures var r1 := Crawl(env, page, store, fuel1);
      var r2 := Crawl(env, page, r1.store, fuel2);
      Manifest.Rows(r2.store) == [Manifest.Header] + SavedRows(r1.log) + SavedRows(r2.log)
  {
    var r1 := Crawl(env, page, store, fuel1);
    CrawlAccounts(env, page, store, fuel1);
    CrawlAccounts(env, page, r1.store, fuel2);
  }

  /**
   * With the crawler's own environment, each progress line reports the filter
   * chain's verdict on its link, never an abort.
   */
  lemma CrawlReportsVerdicts(cfg: Config, net: Net, page: int -> Search.Page, store: Manifest.Store, fuel: Fuel, i: nat)
    requires i < |Crawl(EnvOf(cfg, net), page, store, fuel).log|
    ensures var line := Crawl(EnvOf(cfg, net), page, store, fuel).log[i];
      line.outcome == Judge(cfg, net, line.url).outcome && !line.outcome.Abort?
  {
    var line := Crawl(EnvOf(cfg, net), page, store, fuel).log[i];
    CrawlAccounts(EnvOf(cfg, net), page, store, fuel);
    EnvOfJudges(cfg, net, line.url);
  }

  /** Every link the crawler reports as saved passed each filter of the chain. */
  lemma SavedReportsPassFilters(cfg: Config, net: Net, page: int -> Search.Page, store: Manifest.Store, fuel: Fuel, i: nat)
    requires i < |Crawl(EnvOf(cfg, net), page, store, fuel).log|
    requires Crawl(EnvOf(cfg, net), page, store, fuel).log[i].outcome.Saved?
    ensures var url := Crawl(EnvOf(cfg, net), page, store, fuel).log[i].url;
      MeetsEveryFilter(cfg, AllowedTlds, url, net.head(url))
  {
    var url := Crawl(EnvOf(cfg, net), page, store, fuel).log[i].url;
    CrawlReportsVerdicts(cfg, net, page, store, fuel, i);
    SavedLinksMeetEveryFilter(cfg, AllowedTlds, url, net.head(url), net.get(url));
  }

  /** No link of `items` is saved or ends the run. */
  predicate Unproductive(env: Env, items: seq<string>) {
    forall i :: 0 <= i < |items| ==> !env.verdict(items[i]).Saved? && !env.verdict(items[i]).Abort?
  }

  /** A batch of unproductive links only skips: the run goes on with no new download. */
  lemma {:induction false} UnproductiveBatch(env: Env, st: RunState, items: seq<string>)
    requires st.status == Running && Unproductive(env, items)
    ensures Batch(env, st, items).status == Running
    ensures Batch(env, st, items).successful == st.successful
    decreases |items|
  {
    if items != [] && st.successful < env.cfg.numResults {
      var next := Step(env, st, items[0]);
      assert next.successful == st.successful;
      UnproductiveBatch(env, next, items[1..]);
    }
  }

  /**
   * The re-query asks for the same shortfall and, the search being
   * deterministic, gets the same links back: once a batch is unproductive the
   * outer loop never ends, whatever the round budget.
   */
  lemma {:induction false} StalledRounds(env: Env, search: int -> Search.Pagination, st: RunState, items: seq<string>, rounds: nat)
    requires st.status == Running && st.successful < env.cfg.numResults
    requires Unproductive(env, items)
    requires search(env.cfg.numResults - st.successful) == Search.Pagination(items, search(env.cfg.numResults - st.successful).pages, true)
    requires items != []
    ensures Rounds(env, search, st, items, rounds).status == OutOfFuel
    decreases rounds
  {
    UnproductiveBatch(env, st, items);
    var b := Batch(env, st, items);
    if rounds > 0 {
      StalledRounds(env, search, b, items, rounds - 1);
    }
  }

  /**
   * When the first search returns links none of which can be saved, and it
   * is not empty, `download_pdfs` never returns: the model runs out of every
   * budget.
   */
  lemma UnproductiveFirstBatchNeverFinishes(env: Env, page: int -> Search.Page, store: Manifest.Store, fuel: Fuel)
    requires env.cfg.numResults > 0
    requires var q := Search.SearchUntilGoal(page, env.cfg.numResults, fuel.pages);
      q.complete && q.items != [] && Unproductive(env, q.items)
    ensures DownloadPdfs(env, page, store, fuel).status == OutOfFuel
  {
    var search := SearchWith(page, fuel.pages);
    var q := search(env.cfg.numResults);
    StalledRounds(env, search, Start(store), q.items, fuel.rounds);
  }
}

=== FILE: filters.dfy ===
/**
 * What the crawler learns about a candidate link, and the four acceptance
 * predicates of `PDFDownloader` that judge it.
 */
module Filters {
  import opened Common
  import opened Urls
  import Dates

  /** A `Content-Length` value: one `int()` accepts, or one it raises on. */
  datatype Numeral = Number(n: int) | NotANumber

  /**
   * A `Last-Modified` value as `parsedate_to_datetime` sees it: an instant
   * (whole seconds since the epoch) with the calendar date it names, or text
   * it raises on.
   */
  datatype HttpDate = Parsed(unix: int, date: Dates.CalendarDate) | Unparsable

  /** The three response headers the filters read; None is a header that was not sent. */
  datatype Headers = Headers(
    contentType: Option<string>,
    contentLength: Option<Numeral>,
    lastModified: Option<HttpDate>)

  /** The outcome of the HEAD request: a request exception, or the response headers. */
  datatype Probe = HeadFailed | HeadOk(headers: Headers)

  /** The outcome of the GET request: a request exception, or the response body. */
  datatype Fetch = GetFailed | GetOk(body: Bytes)

  const PdfMediaType: string := "application/pdf"

  /** `any(host.endswith(tld) for tld in suffixes)`, scanning the list in order. */
  function AnySuffix(host: string, suffixes: seq<string>): bool {
    suffixes != [] && (EndsWith(host, suffixes[0]) || AnySuffix(host, suffixes[1..]))
  }

  /** The scan answers true exactly when some suffix of the list ends `host`. */
  lemma {:induction false} AnySuffixMeaning(host: string, suffixes: seq<string>)
    ensures AnySuffix(host, suffixes) <==> exists i :: 0 <= i < |suffixes| && EndsWith(host, suffixes[i])
    decreases |suffixes|
  {
    if suffixes != [] {
      AnySuffixMeaning(host, suffixes[1..]);
      assert forall i :: 0 <= i < |suffixes| - 1 ==> suffixes[1..][i] == suffixes[i + 1];
      if AnySuffix(host, suffixes[1..]) {
        var i :| 0 <= i < |suffixes| - 1 && EndsWith(host, suffixes[1..][i]);
        assert EndsWith(host, suffixes[i + 1]);
      }
    }
  }

  /**
   * `is_valid_domain`: the URL's network location ends with one of the allowed
   * suffixes. None is the ValueError `urlparse` raises on a malformed URL.
   */
  function IsValidDomain(url: string, allowed: seq<string>): Option<bool> {
    match Netloc(url)
    case None => None
    case Some(host) => Some(AnySuffix(host, allowed))
  }

  /**
   * The domain check raises exactly when URL parsing does, and accepts exactly
   * when the network location ends with an allowed suffix.
   */
  lemma IsValidDomainMeaning(url: string, allowed: seq<string>)
    ensures IsValidDomain(url, allowed).None? <==> Netloc(url).None?
    ensures IsValidDomain(url, allowed) == Some(true) <==>
      Netloc(url).Some? && exists i :: 0 <= i < |allowed| && EndsWith(Netloc(url).value, allowed[i])
  {
    if Netloc(url).Some? {
      AnySuffixMeaning(Netloc(url).value, allowed);
    }
  }

  /** An empty allow-list accepts no URL. */
  lemma EmptyAllowListRejects(url: string)
    ensures IsValidDomain(url, []) != Some(true)
  {
  }

  /**
   * With the allow-list [".de"], an absolute URL with an ASCII,
   * bracket-free network location passes iff that network location, port and user info included,
   * ends in ".de".
   */
  lemma DotDeAllowList(scheme: string, netloc: string, path: string)
    requires |scheme| > 0 && IsAsciiLetter(scheme[0])
    requires forall k :: 0 <= k < |scheme| ==> IsSchemeChar(scheme[k])
    requires forall k :: 0 <= k < |netloc| ==> !IsDelimiter(netloc[k]) && !IsUnsafe(netloc[k])
    requires forall k :: 0 <= k < |netloc| ==> netloc[k] < 128 as char
    requires '[' !in netloc && ']' !in netloc
    requires path == [] || IsDelimiter(path[0])
    requires forall k :: 0 <= k < |path| ==> !IsUnsafe(path[k])
    ensures IsValidDomain(scheme + "://" + netloc + path, [".de"]) == Some(EndsWith(netloc, ".de"))
  {
    NetlocOfAbsoluteUrl(scheme, netloc, path);
    assert AnySuffix(netloc, [".de"]) == EndsWith(netloc, ".de") by {
      assert [".de"][1..] == [];
    }
  }

  /**
   * The suffix test sees the whole network location: a port written after
   * the host makes the link fail, even when the host ends in ".de"
   * ("https://example.de:443/a.pdf" is rejected).
   */
  lemma PortDefeatsDotDe(scheme: string, host: string, port: string, path: string)
    requires |scheme| > 0 && IsAsciiLetter(scheme[0])
    requires forall k :: 0 <= k < |scheme| ==> IsSchemeChar(scheme[k])
    requires forall k :: 0 <= k < |host| ==> !IsDelimiter(host[k]) && !IsUnsafe(host[k]) && host[k] < 128 as char
    requires '[' !in host && ']' !in host
    requires |port| > 0 && forall k :: 0 <= k < |port| ==> '0' <= port[k] <= '9'
    requires path == [] || IsDelimiter(path[0])
    requires forall k :: 0 <= k < |path| ==> !IsUnsafe(path[k])
    ensures IsValidDomain(scheme + "://" + (host + ":" + port) + path, [".de"]) == Some(false)
  {
    var netloc := host + ":" + port;
    HostWithPort(host, port);
    DotDeAllowList(scheme, netloc, path);
    assert netloc[|netloc| - 1] == port[|port| - 1];
  }

  /** A host followed by ":" and a decimal port is still a clean ASCII network location. */
  lemma HostWithPort(host: string, port: string)
    requires forall k :: 0 <= k < |host| ==> !IsDelimiter(host[k]) && !IsUnsafe(host[k]) && host[k] < 128 as char
    requires forall k :: 0 <= k < |port| ==> '0' <= port[k] <= '9'
    ensures var netloc := host + ":" + port;
      && (forall k :: 0 <= k < |netloc| ==> !IsDelimiter(netloc[k]) && !IsUnsafe(netloc[k]) && netloc[k] < 128 as char)
      && ('[' in netloc) == ('[' in host) && (']' in netloc) == (']' in host)
  {
    var netloc := host + ":" + port;
    forall k | 0 <= k < |netloc|
      ensures !IsDelimiter(netloc[k]) && !IsUnsafe(netloc[k]) && netloc[k] < 128 as char
    {
      if k > |host| {
        assert netloc[k] == port[k - |host| - 1];
      } else if k < |host| {
        assert netloc[k] == host[k];
      }
    }
    assert forall c :: c in netloc <==> c in host || c == ':' || c in port;
  }

  /** `is_valid_pdf`: the Content-Type header is present and is exactly "application/pdf". */
  predicate IsValidPdf(contentType: Option<string>) {
    contentType == Some(PdfMediaType)
  }

  /** Media-type parameters, other casing and a missing header are all rejected. */
  lemma ContentTypeIsExact(params: string)
    ensures IsValidPdf(Some(PdfMediaType + params)) <==> params == []
    ensures !IsValidPdf(Some("Application/PDF"))
    ensures !IsValidPdf(None)
  {
    if params == [] {
      assert PdfMediaType + params == PdfMediaType;
    } else {
      assert |PdfMediaType + params| != |PdfMediaType|;
    }
    assert "Application/PDF"[0] != PdfMediaType[0];
  }

  /** `int(headers.get('Content-Length', 0))`: 0 when absent, None when `int()` raises. */
  function ReportedSize(contentLength: Option<Numeral>): (r: Option<int>)
    ensures r.None? <==> contentLength == Some(NotANumber)
  {
    match contentLength
    case None => Some(0)
    case Some(Number(n)) => Some(n)
    case Some(NotANumber) => None
  }

  /**
   * `is_below_max_size`: the reported size is at most `maxSize` (inclusive);
   * no limit passes every size. None is the ValueError of a non-numeric header,
   * raised whether or not a limit is set.
   */
  function IsBelowMaxSize(contentLength: Option<Numeral>, maxSize: Option<int>): (r: Option<bool>)
  {
    match ReportedSize(contentLength)
    case None => None
    case Some(size) => Some(maxSize.None? || size <= maxSize.value)
  }

  /** The size rule case by case: missing counts as 0, the bound is inclusive, no bound passes. */
  lemma SizeCheckRule(contentLength: Option<Numeral>, maxSize: Option<int>)
    ensures IsBelowMaxSize(contentLength, maxSize).None? <==> contentLength == Some(NotANumber)
    ensures contentLength.None? ==> IsBelowMaxSize(contentLength, maxSize) == Some(maxSize.None? || 0 <= maxSize.value)
    ensures maxSize.None? && contentLength != Some(NotANumber) ==> IsBelowMaxSize(contentLength, maxSize) == Some(true)
    ensures forall n :: contentLength == Some(Number(n)) && maxSize.Some? ==>
      (IsBelowMaxSize(contentLength, maxSize) == Some(true) <==> n <= maxSize.value)
  {
  }

  /** Raising the size limit never turns an accepted link into a rejected one. */
  lemma SizeCheckMonotone(contentLength: Option<Numeral>, m1: int, m2: int)
    requires m1 <= m2
    requires IsBelowMaxSize(contentLength, Some(m1)) == Some(true)
    ensures IsBelowMaxSize(contentLength, Some(m2)) == Some(true)
  {
  }

  /** `is_newer_than_cutoff`: no cutoff passes; otherwise the instant is at or after it. */
  predicate IsNewerThanCutoff(lastModified: int, cutoff: Option<int>) {
    cutoff.None? || lastModified >= cutoff.value
  }

  /** The cutoff is inclusive and moving it earlier never rejects more links. */
  lemma CutoffRule(lastModified: int, c1: int, c2: int)
    requires c1 <= c2
    ensures IsNewerThanCutoff(lastModified, None)
    ensures IsNewerThanCutoff(c2, Some(c2)) && !IsNewerThanCutoff(c2 - 1, Some(c2))
    ensures IsNewerThanCutoff(lastModified, Some(c2)) ==> IsNewerThanCutoff(lastModified, Some(c1))
  {
  }
}

=== FILE: manifest.dfy ===
/**
 * Local storage: the downloaded files and the CSV manifest that records, for
 * every download, the URL and the path it was stored under.
 */
module Manifest {
  import opened Common
  import opened Urls
  import Dates

  /** One manifest row: [url, filename]. CSV quoting is not modelled. */
  datatype Row = Row(url: string, filename: string)

  const Header: Row := Row("URL", "Filename")

  /** Directory the payloads are written to. */
  const OutDir: string := "out"

  /** The manifest file (None while it does not exist) and the written files by path. */
  datatype Store = Store(manifest: Option<seq<Row>>, files: map<string, Bytes>)

  /** The rows of the manifest; a missing file has none. */
  function Rows(s: Store): seq<Row> {
    s.manifest.GetOr([])
  }

  /** `init_csv`: create the manifest holding only the header, unless it already exists. */
  function InitCsv(s: Store): (r: Store)
    ensures r.files == s.files
    ensures r.manifest.Some?
    ensures s.manifest.Some? ==> r == s
    ensures s.manifest.None? ==> Rows(r) == [Header]
  {
    if s.manifest.None? then s.(manifest := Some([Header])) else s
  }

  /** Running the initialisation again changes nothing: at most one header is ever written. */
  lemma InitCsvIdempotent(s: Store)
    ensures InitCsv(InitCsv(s)) == InitCsv(s)
  {
  }

  /** Opening the manifest in append mode creates it (without a header) when missing. */
  function AppendRow(s: Store, row: Row): (r: Store)
    ensures r.manifest.Some?
    ensures Rows(r) == Rows(s) + [row]
    ensures r.files == s.files
  {
    s.(manifest := Some(Rows(s) + [row]))
  }

  /** Write `body` to `path`, replacing an earlier file of the same name. */
  function WriteFile(s: Store, path: string, body: Bytes): (r: Store)
    ensures r.manifest == s.manifest
    ensures r.files.Keys == s.files.Keys + {path}
    ensures path in r.files && r.files[path] == body
    ensures forall p :: p in s.files && p != path ==> r.files[p] == s.files[p]
  {
    s.(files := s.files[path := body])
  }

  /** The successful half of `download_single_pdf`: store the body, then append [url, path]. */
  function Record(s: Store, url: string, path: string, body: Bytes): (r: Store)
    ensures Rows(r) == Rows(s) + [Row(url, path)]
    ensures r.manifest.Some?
    ensures r.files.Keys == s.files.Keys + {path}
    ensures path in r.files && r.files[path] == body
    ensures forall p :: p in s.files && p != path ==> r.files[p] == s.files[p]
  {
    AppendRow(WriteFile(s, path, body), Row(url, path))
  }

  /** The stored path: `os.path.join('out', date + "_" + url.split('/')[-1])`. */
  function StoredFilename(url: string, formattedDate: string): (r: string)
  {
    JoinPath(OutDir, formattedDate + "_" + LastSegment(url))
  }

  /**
   * For a formatted date (eight digits), the path is "out/", the date, '_' and
   * the URL's last segment, which holds no '/'.
   */
  lemma StoredFilenameShape(url: string, formattedDate: string)
    requires |formattedDate| == 8 && Dates.AllDigits(formattedDate)
    ensures StoredFilename(url, formattedDate) == "out/" + formattedDate + "_" + LastSegment(url)
    ensures |StoredFilename(url, formattedDate)| == 13 + |LastSegment(url)|
  {
    var name := formattedDate + "_" + LastSegment(url);
    assert Dates.IsDigit(formattedDate[0]);
    JoinUnderOut(name);
    assert "out" + "/" + name == "out/" + formattedDate + "_" + LastSegment(url);
  }

  /** A name that starts with a digit goes under "out/". */
  lemma JoinUnderOut(name: string)
    requires |name| > 0 && '0' <= name[0] <= '9'
    ensures JoinPath(OutDir, name) == "out" + "/" + name
  {
  }

  /**
   * Two downloads collide on disk exactly when their formatted dates and their
   * last URL segments agree; the file names are not made unique.
   */
  lemma {:induction false} SameStoredFilename(u1: string, f1: string, u2: string, f2: string)
    requires |f1| == 8 && Dates.AllDigits(f1)
    requires |f2| == 8 && Dates.AllDigits(f2)
    ensures StoredFilename(u1, f1) == StoredFilename(u2, f2) <==> f1 == f2 && LastSegment(u1) == LastSegment(u2)
  {
    StoredFilenameShape(u1, f1);
    StoredFilenameShape(u2, f2);
    var p1 := "out/" + f1 + "_" + LastSegment(u1);
    var p2 := "out/" + f2 + "_" + LastSegment(u2);
    if p1 == p2 {
      assert p1[4..12] == f1 && p2[4..12] == f2;
      assert p1[13..] == LastSegment(u1) && p2[13..] == LastSegment(u2);
    }
  }

  /** Stated on dates: same stored path iff same Last-Modified day and same last segment. */
  lemma SameDayCollision(u1: string, d1: Dates.CalendarDate, u2: string, d2: Dates.CalendarDate)
    ensures StoredFilename(u1, Dates.FormatDate(d1)) == StoredFilename(u2, Dates.FormatDate(d2))
      <==> d1 == d2 && LastSegment(u1) == LastSegment(u2)
  {
    SameStoredFilename(u1, Dates.FormatDate(d1), u2, Dates.FormatDate(d2));
    Dates.FormatDateInjective(d1, d2);
  }
}

=== FILE: pipeline.dfy ===
/**
 * The per-link filter chain of `download_pdfs`: domain, HEAD probe,
 * content type, Last-Modified parse and age, size, then GET. The first check
 * that fails decides the outcome and no later check runs.
 */
module Pipeline {
  import opened Common
  import opened Filters
  import Dates
  import Manifest

  /** The downloader's settings: goal count, optional size limit and optional cutoff instant. */
  datatype Config = Config(numResults: int, maxSize: Option<int>, cutoff: Option<int>)

  /** Exceptions the filter chain does not catch; each ends the whole run. */
  datatype AbortReason = MalformedUrl | BadLastModified | BadContentLength

  /** How one candidate link ends. */
  datatype Outcome =
    | Saved(path: string)
    | SkipDomain
    | SkipProbeError
    | SkipNotPdf
    | SkipTooOld
    | SkipTooLarge
    | SkipFetchError
    | Abort(reason: AbortReason)

  /** The checks of the chain. */
  datatype Stage = DomainCheck | HeadProbe | TypeCheck | AgeCheck | SizeCheck | GetFetch

  /** The fixed order in which the checks run. */
  const Chain: seq<Stage> := [DomainCheck, HeadProbe, TypeCheck, AgeCheck, SizeCheck, GetFetch]

  /** The outcome of one link and the checks that ran for it, in order. */
  datatype Verdict = Verdict(outcome: Outcome, ran: seq<Stage>)

  /** The calendar date of the Last-Modified header, when the probe has one that parses. */
  function LastModifiedDate(probe: Probe): Option<Dates.CalendarDate> {
    if probe.HeadOk? && probe.headers.lastModified.Some? && probe.headers.lastModified.value.Parsed?
    then Some(probe.headers.lastModified.value.date)
    else None
  }

  /**
   * Whether `stage`, judged on its own, lets the link through; `domain` is the
   * domain check's answer for the link (None when `urlparse` raised).
   */
  predicate Passes(stage: Stage, cfg: Config, domain: Option<bool>, probe: Probe, fetch: Fetch) {
    match stage
    case DomainCheck => domain == Some(true)
    case HeadProbe => probe.HeadOk?
    case TypeCheck => probe.HeadOk? && IsValidPdf(probe.headers.contentType)
    case AgeCheck =>
      probe.HeadOk? && probe.headers.lastModified.Some? && probe.headers.lastModified.value.Parsed?
      && IsNewerThanCutoff(probe.headers.lastModified.value.unix, cfg.cutoff)
    case SizeCheck => probe.HeadOk? && IsBelowMaxSize(probe.headers.contentLength, cfg.maxSize) == Some(true)
    case GetFetch => fetch.GetOk?
  }

  /** The outcome recorded when `stage` is the check that stops the link. */
  function StopOutcome(stage: Stage, domain: Option<bool>, probe: Probe): Outcome {
    match stage
    case DomainCheck => if domain.None? then Abort(MalformedUrl) else SkipDomain
    case HeadProbe => SkipProbeError
    case TypeCheck => SkipNotPdf
    case AgeCheck => if LastModifiedDate(probe).Some? then SkipTooOld else Abort(BadLastModified)
    case SizeCheck =>
      if probe.HeadOk? && IsBelowMaxSize(probe.headers.contentLength, Some(0)).None?
      then Abort(BadContentLength) else SkipTooLarge
    case GetFetch => SkipFetchError
  }

  /** Path of a saved link: the URL's last segment prefixed with its Last-Modified day. */
  function SavedPath(url: string, probe: Probe): string
    requires LastModifiedDate(probe).Some?
  {
    Manifest.StoredFilename(url, Dates.FormatDate(LastModifiedDate(probe).value))
  }

  /**
   * The first-failure discipline: the checks that ran are a prefix of `Chain`,
   * all but the last passed, and the last one either failed and chose the
   * outcome, or was a successful GET and the link was saved under its path.
   */
  predicate FollowsChain(v: Verdict, cfg: Config, domain: Option<bool>, url: string, probe: Probe, fetch: Fetch) {
    && 1 <= |v.ran| <= |Chain|
    && v.ran == Chain[..|v.ran|]
    && (forall i :: 0 <= i < |v.ran| - 1 ==> Passes(v.ran[i], cfg, domain, probe, fetch))
    && (if Passes(v.ran[|v.ran| - 1], cfg, domain, probe, fetch)
        then |v.ran| == |Chain| && LastModifiedDate(probe).Some? && v.outcome == Saved(SavedPath(url, probe))
        else v.outcome == StopOutcome(v.ran[|v.ran| - 1], domain, probe))
  }

  /**
   * The checks after URL parsing, in the order of `download_pdfs`, given the domain check's
   * answer and what the HEAD and GET requests would return.
   */
  function RunChecks(cfg: Config, domain: Option<bool>, url: string, probe: Probe, fetch: Fetch): Verdict {
    match domain
    case None => Verdict(Abort(MalformedUrl), Chain[..1])
    case Some(ok) =>
      if !ok then Verdict(SkipDomain, Chain[..1])
      else match probe
        case HeadFailed => Verdict(SkipProbeError, Chain[..2])
        case HeadOk(h) =>
          if !IsValidPdf(h.contentType) then Verdict(SkipNotPdf, Chain[..3])
          else match h.lastModified
            case Some(Parsed(unix, date)) =>
              if !IsNewerThanCutoff(unix, cfg.cutoff) then Verdict(SkipTooOld, Chain[..4])
              else (match IsBelowMaxSize(h.contentLength, cfg.maxSize)
                case None => Verdict(Abort(BadContentLength), Chain[..5])
                case Some(small) =>
                  if !small then Verdict(SkipTooLarge, Chain[..5])
                  else (match fetch
                    case GetFailed => Verdict(SkipFetchError, Chain)
                    case GetOk(_) => Verdict(Saved(Manifest.StoredFilename(url, Dates.FormatDate(date))), Chain)))
            case _ => Verdict(Abort(BadLastModified), Chain[..4])
  }

  /** Classify one candidate link: check its domain, then run the remaining checks. */
  function Classify(cfg: Config, allowed: seq<string>, url: string, probe: Probe, fetch: Fetch): Verdict {
    RunChecks(cfg, IsValidDomain(url, allowed), url, probe, fetch)
  }

  /** A verdict that stops at check `k` of the chain, after every earlier check passed. */
  lemma StopFollowsChain(k: nat, cfg: Config, domain: Option<bool>, url: string, probe: Probe, fetch: Fetch)
    requires 1 <= k <= |Chain|
    requires forall i :: 0 <= i < k - 1 ==> Passes(Chain[i], cfg, domain, probe, fetch)
    requires !Passes(Chain[k - 1], cfg, domain, probe, fetch)
    ensures FollowsChain(Verdict(StopOutcome(Chain[k - 1], domain, probe), Chain[..k]), cfg, domain, url, probe, fetch)
  {
  }

  /** The verdict `RunChecks` gives when check `k` is the first to fail. */
  lemma RunChecksStopsAt(k: nat, cfg: Config, domain: Option<bool>, url: string, probe: Probe, fetch: Fetch)
    requires 1 <= k <= |Chain|
    requires forall i :: 0 <= i < k - 1 ==> Passes(Chain[i], cfg, domain, probe, fetch)
    requires !Passes(Chain[k - 1], cfg, domain, probe, fetch)
    ensures RunChecks(cfg, domain, url, probe, fetch) == Verdict(StopOutcome(Chain[k - 1], domain, probe), Chain[..k])
  {
    assert Chain[..k] == Chain[..k - 1] + [Chain[k - 1]];
    if k > 1 { assert Passes(DomainCheck, cfg, domain, probe, fetch) by { assert Chain[0] == DomainCheck; } }
    if k > 2 { assert Passes(HeadProbe, cfg, domain, probe, fetch) by { assert Chain[1] == HeadProbe; } }
    if k > 3 { assert Passes(TypeCheck, cfg, domain, probe, fetch) by { assert Chain[2] == TypeCheck; } }
    if k > 4 { assert Passes(AgeCheck, cfg, domain, probe, fetch) by { assert Chain[3] == AgeCheck; } }
    if k > 5 { assert Passes(SizeCheck, cfg, domain, probe, fetch) by { assert Chain[4] == SizeCheck; } }
  }

  /** Every check of the chain passing, spelled out check by check. */
  lemma AllChecksPass(cfg: Config, domain: Option<bool>, probe: Probe, fetch: Fetch)
    requires forall i :: 0 <= i < |Chain| ==> Passes(Chain[i], cfg, domain, probe, fetch)
    ensures domain == Some(true) && probe.HeadOk? && IsValidPdf(probe.headers.contentType)
    ensures probe.headers.lastModified.Some? && probe.headers.lastModified.value.Parsed?
    ensures IsNewerThanCutoff(probe.headers.lastModified.value.unix, cfg.cutoff)
    ensures IsBelowMaxSize(probe.headers.contentLength, cfg.maxSize) == Some(true)
    ensures fetch.GetOk?
  {
    assert Passes(Chain[0], cfg, domain, probe, fetch) && Chain[0] == DomainCheck;
    assert Passes(Chain[1], cfg, domain, probe, fetch) && Chain[1] == HeadProbe;
    assert Passes(Chain[2], cfg, domain, probe, fetch) && Chain[2] == TypeCheck;
    assert Passes(Chain[3], cfg, domain, probe, fetch) && Chain[3] == AgeCheck;
    assert Passes(Chain[4], cfg, domain, probe, fetch) && Chain[4] == SizeCheck;
    assert Passes(Chain[5], cfg, domain, probe, fetch) && Chain[5] == GetFetch;
  }

  /** The verdict `RunChecks` gives when every check passes: saved under its dated path. */
  lemma RunChecksSaves(cfg: Config, domain: Option<bool>, url: string, probe: Probe, fetch: Fetch)
    requires forall i :: 0 <= i < |Chain| ==> Passes(Chain[i], cfg, domain, probe, fetch)
    ensures LastModifiedDate(probe).Some?
    ensures RunChecks(cfg, domain, url, probe, fetch) == Verdict(Saved(SavedPath(url, probe)), Chain)
  {
    AllChecksPass(cfg, domain, probe, fetch);
  }

  /** The checks run in chain order and stop at the first that fails. */
  lemma RunChecksFollowsChain(cfg: Config, domain: Option<bool>, url: string, probe: Probe, fetch: Fetch)
    ensures FollowsChain(RunChecks(cfg, domain, url, probe, fetch), cfg, domain, url, probe, fetch)
  {
    var k: nat := 0;
    while k < |Chain| && Passes(Chain[k], cfg, domain, probe, fetch)
      invariant k <= |Chain|
      invariant forall i :: 0 <= i < k ==> Passes(Chain[i], cfg, domain, probe, fetch)
    {
      k := k + 1;
    }
    if k == |Chain| {
      RunChecksSaves(cfg, domain, url, probe, fetch);
      assert Chain[..|Chain|] == Chain;
    } else {
      RunChecksStopsAt(k + 1, cfg, domain, url, probe, fetch);
      StopFollowsChain(k + 1, cfg, domain, url, probe, fetch);
    }
  }

  /** `Classify` follows the chain, the domain check answering for the URL. */
  lemma ClassifyFollowsChain(cfg: Config, allowed: seq<string>, url: string, probe: Probe, fetch: Fetch)
    ensures FollowsChain(Classify(cfg, allowed, url, probe, fetch), cfg, IsValidDomain(url, allowed), url, probe, fetch)
  {
    RunChecksFollowsChain(cfg, IsValidDomain(url, allowed), url, probe, fetch);
  }

  /** The chain discipline leaves no choice: two verdicts that follow it agree. */
  lemma FollowsChainUnique(w: Verdict, v: Verdict, cfg: Config, domain: Option<bool>, url: string, probe: Probe, fetch: Fetch)
    requires FollowsChain(w, cfg, domain, url, probe, fetch)
    requires FollowsChain(v, cfg, domain, url, probe, fetch)
    ensures w == v
  {
    forall i | 0 <= i < |w.ran| - 1
      ensures Passes(Chain[i], cfg, domain, probe, fetch)
    {
      assert w.ran[i] == Chain[i];
    }
    forall i | 0 <= i < |v.ran| - 1
      ensures Passes(Chain[i], cfg, domain, probe, fetch)
    {
      assert v.ran[i] == Chain[i];
    }
    assert w.ran[|w.ran| - 1] == Chain[|w.ran| - 1];
    assert v.ran[|v.ran| - 1] == Chain[|v.ran| - 1];
    assert |w.ran| == |v.ran|;
  }

  /** A verdict that follows the chain is the one `RunChecks` gives. */
  lemma {:induction false} ChainDeterminesVerdict(w: Verdict, cfg: Config, domain: Option<bool>, url: string, probe: Probe, fetch: Fetch)
    requires FollowsChain(w, cfg, domain, url, probe, fetch)
    ensures w == RunChecks(cfg, domain, url, probe, fetch)
  {
    RunChecksFollowsChain(cfg, domain, url, probe, fetch);
    FollowsChainUnique(w, RunChecks(cfg, domain, url, probe, fetch), cfg, domain, url, probe, fetch);
  }

  /** A network request the chain issues. */
  datatype Request = Head(target: string) | Get(target: string)

  /** The requests issued by the checks in `ran`, in order: HEAD for the probe, GET for the fetch. */
  function Requests(url: string, ran: seq<Stage>): seq<Request> {
    if ran == [] then []
    else
      (match ran[0]
       case HeadProbe => [Head(url)]
       case GetFetch => [Get(url)]
       case _ => []) + Requests(url, ran[1..])
  }

  lemma {:induction false} RequestsAppend(url: string, a: seq<Stage>, b: seq<Stage>)
    ensures Requests(url, a + b) == Requests(url, a) + Requests(url, b)
  {
    if a == [] {
      assert a + b == b;
    } else {
      assert (a + b)[0] == a[0];
      assert (a + b)[1..] == a[1..] + b;
      RequestsAppend(url, a[1..], b);
    }
  }

  /** The requests of a single check. */
  lemma RequestsOfStage(url: string, stage: Stage)
    ensures Requests(url, [stage]) == (match stage case HeadProbe => [Head(url)] case GetFetch => [Get(url)] case _ => [])
  {
    assert [stage][1..] == [];
  }

  /** Extending the checks that ran by one adds that check's requests. */
  lemma RequestsSnoc(url: string, ran: seq<Stage>, stage: Stage)
    ensures Requests(url, ran + [stage]) == Requests(url, ran) + Requests(url, [stage])
  {
    RequestsAppend(url, ran, [stage]);
  }

  /**
   * The requests of the first `k` checks of the chain: none before the probe,
   * then HEAD, then HEAD and GET once the fetch has run.
   */
  lemma {:induction false} RequestsOfPrefix(url: string, k: nat)
    requires k <= |Chain|
    ensures Requests(url, Chain[..k]) == if k <= 1 then [] else if k < |Chain| then [Head(url)] else [Head(url), Get(url)]
  {
    if k == 0 {
      assert Chain[..0] == [];
    } else {
      RequestsOfPrefix(url, k - 1);
      assert Chain[..k] == Chain[..k - 1] + [Chain[k - 1]];
      RequestsSnoc(url, Chain[..k - 1], Chain[k - 1]);
      RequestsOfStage(url, Chain[k - 1]);
    }
  }

  /**
   * A link turned away by the domain check costs no request; any other link is
   * probed with HEAD first, and GET is issued exactly for links that are saved
   * or whose download fails.
   */
  lemma ChainRequests(cfg: Config, domain: Option<bool>, url: string, probe: Probe, fetch: Fetch)
    ensures var v := RunChecks(cfg, domain, url, probe, fetch);
      && (domain != Some(true) ==> Requests(url, v.ran) == [])
      && (domain == Some(true) ==> |Requests(url, v.ran)| >= 1 && Requests(url, v.ran)[0] == Head(url))
      && (Get(url) in Requests(url, v.ran) <==> v.outcome.Saved? || v.outcome == SkipFetchError)
  {
    RunChecksFollowsChain(cfg, domain, url, probe, fetch);
    FollowedRequests(RunChecks(cfg, domain, url, probe, fetch), cfg, domain, url, probe, fetch);
  }

  /**
   * How far a verdict that follows the chain gets: past the domain check
   * exactly when the domain is accepted, and as far as the GET exactly when
   * the link is saved or its download fails.
   */
  lemma FollowedLength(v: Verdict, cfg: Config, domain: Option<bool>, url: string, probe: Probe, fetch: Fetch)
    requires FollowsChain(v, cfg, domain, url, probe, fetch)
    ensures |v.ran| > 1 <==> domain == Some(true)
    ensures |v.ran| == |Chain| <==> v.outcome.Saved? || v.outcome == SkipFetchError
  {
    var n := |v.ran|;
    assert v.ran[0] == Chain[0] == DomainCheck;
    if n == 1 {
      assert !Passes(DomainCheck, cfg, domain, probe, fetch);
    } else {
      assert Passes(v.ran[0], cfg, domain, probe, fetch);
    }
    if n == |Chain| {
      assert v.ran[n - 1] == Chain[5] == GetFetch;
    } else {
      assert v.ran[n - 1] == Chain[n - 1] != GetFetch;
    }
  }

  /** The requests of any verdict that follows the chain, as `ChainRequests` states them. */
  lemma FollowedRequests(v: Verdict, cfg: Config, domain: Option<bool>, url: string, probe: Probe, fetch: Fetch)
    requires FollowsChain(v, cfg, domain, url, probe, fetch)
    ensures domain != Some(true) ==> Requests(url, v.ran) == []
    ensures domain == Some(true) ==> |Requests(url, v.ran)| >= 1 && Requests(url, v.ran)[0] == Head(url)
    ensures Get(url) in Requests(url, v.ran) <==> v.outcome.Saved? || v.outcome == SkipFetchError
  {
    FollowedLength(v, cfg, domain, url, probe, fetch);
    RequestsOfPrefix(url, |v.ran|);
    assert Get(url) !in [Head(url)];
  }

  /** `Classify` issues its requests as `ChainRequests` describes, the domain check answering for the URL. */
  lemma NetworkRequests(cfg: Config, allowed: seq<string>, url: string, probe: Probe, fetch: Fetch)
    ensures var v := Classify(cfg, allowed, url, probe, fetch);
      && (IsValidDomain(url, allowed) != Some(true) ==> Requests(url, v.ran) == [])
      && (IsValidDomain(url, allowed) == Some(true) ==> |Requests(url, v.ran)| >= 1 && Requests(url, v.ran)[0] == Head(url))
      && (Get(url) in Requests(url, v.ran) <==> v.outcome.Saved? || v.outcome == SkipFetchError)
  {
    ChainRequests(cfg, IsValidDomain(url, allowed), url, probe, fetch);
  }

  /** A link is saved exactly when every filter accepts it and the GET succeeds. */
  lemma SavedIffAccepted(cfg: Config, domain: Option<bool>, url: string, probe: Probe, fetch: Fetch)
    ensures RunChecks(cfg, domain, url, probe, fetch).outcome.Saved? <==>
      && domain == Some(true)
      && probe.HeadOk?
      && IsValidPdf(probe.headers.contentType)
      && LastModifiedDate(probe).Some?
      && IsNewerThanCutoff(probe.headers.lastModified.value.unix, cfg.cutoff)
      && IsBelowMaxSize(probe.headers.contentLength, cfg.maxSize) == Some(true)
      && fetch.GetOk?
  {
  }

  /**
   * The link's network location (user info and port included) ends with an
   * allowed suffix, and the link announced exactly "application/pdf",
   * was modified no earlier than the cutoff and reported a size within the
   * limit.
   */
  predicate MeetsEveryFilter(cfg: Config, allowed: seq<string>, url: string, probe: Probe) {
    && Urls.Netloc(url).Some?
    && (exists i :: 0 <= i < |allowed| && Urls.EndsWith(Urls.Netloc(url).value, allowed[i]))
    && probe.HeadOk? && probe.headers.contentType == Some(PdfMediaType)
    && LastModifiedDate(probe).Some?
    && (cfg.cutoff.Some? ==> probe.headers.lastModified.value.unix >= cfg.cutoff.value)
    && ReportedSize(probe.headers.contentLength).Some?
    && (cfg.maxSize.Some? ==> ReportedSize(probe.headers.contentLength).value <= cfg.maxSize.value)
  }

  /** Every link the chain saves meets each filter. */
  lemma SavedLinksMeetEveryFilter(cfg: Config, allowed: seq<string>, url: string, probe: Probe, fetch: Fetch)
    ensures Classify(cfg, allowed, url, probe, fetch).outcome.Saved? ==> MeetsEveryFilter(cfg, allowed, url, probe)
  {
    SavedIffAccepted(cfg, IsValidDomain(url, allowed), url, probe, fetch);
    IsValidDomainMeaning(url, allowed);
  }

  /**
   * Once the content type is accepted, a missing or unparsable Last-Modified
   * header aborts the run, whether or not a cutoff is configured.
   */
  lemma MissingLastModifiedAborts(cfg: Config, url: string, probe: Probe, fetch: Fetch)
    requires probe.HeadOk? && IsValidPdf(probe.headers.contentType)
    requires probe.headers.lastModified.None? || probe.headers.lastModified.value.Unparsable?
    ensures RunChecks(cfg, Some(true), url, probe, fetch) == Verdict(Abort(BadLastModified), Chain[..4])
  {
  }

  /** A failed HEAD request skips the link before any header is examined. */
  lemma ProbeFailureSkips(cfg: Config, url: string, fetch: Fetch)
    ensures RunChecks(cfg, Some(true), url, HeadFailed, fetch) == Verdict(SkipProbeError, [DomainCheck, HeadProbe])
  {
  }
}

=== FILE: search.dfy ===
/**
 * `search_pdfs_until_goal`: request result pages at start indices 1, 11, 21,
 * ... and concatenate their links until at least `goal` are collected, a page
 * has no items, or a request fails. The search service is an oracle from the
 * start index to the page it returns.
 */
module Search {

  /** One answer of the search service: no `items` key, an exception, or the page's links. */
  datatype Page = Absent | Failed | Items(links: seq<string>)

  /**
   * What a pagination produced: the links, how many pages contributed, and
   * whether the loop ended on its own (`complete`) or the page budget ran out
   * first (`pdf_crawler.py` has no such budget: it would keep requesting).
   */
  datatype Pagination = Pagination(items: seq<string>, pages: nat, complete: bool)

  /** Start index of the `k`-th page request (counting from 0); pages hold ten results. */
  function StartOf(k: nat): int {
    1 + 10 * k
  }

  /** The first `k` pages all returned items. */
  predicate AllItems(page: int -> Page, k: nat) {
    forall j :: 0 <= j < k ==> page(StartOf(j)).Items?
  }

  /** The links of the first `k` pages, in page order. */
  function Collected(page: int -> Page, k: nat): seq<string>
    requires AllItems(page, k)
  {
    if k == 0 then [] else Collected(page, k - 1) + page(StartOf(k - 1)).links
  }

  /**
   * The pagination after `k` pages were taken, with at most `fuel` more
   * requests: stop once the goal is met, on a page without items, or when the
   * budget is spent.
   */
  function Paginate(page: int -> Page, goal: int, k: nat, fuel: nat): (r: Pagination)
    requires AllItems(page, k)
    ensures r.pages >= k && AllItems(page, r.pages) && r.items == Collected(page, r.pages)
    decreases fuel
  {
    if |Collected(page, k)| >= goal then Pagination(Collected(page, k), k, true)
    else if fuel == 0 then Pagination(Collected(page, k), k, false)
    else if page(StartOf(k)).Items? then Paginate(page, goal, k + 1, fuel - 1)
    else Pagination(Collected(page, k), k, true)
  }

  /**
   * Where a pagination stops: every earlier page count fell short of the
   * goal; a loop that ended on its own met the goal or reached a page without
   * items; one cut off by the budget spent all of it short of the goal.
   */
  lemma {:induction false} PaginateStops(page: int -> Page, goal: int, k: nat, fuel: nat)
    requires AllItems(page, k)
    ensures var r := Paginate(page, goal, k, fuel);
      && (forall j :: k <= j < r.pages ==> |Collected(page, j)| < goal)
      && (r.complete ==> |r.items| >= goal || !page(StartOf(r.pages)).Items?)
      && (!r.complete ==> r.pages == k + fuel && |r.items| < goal)
    decreases fuel
  {
    if |Collected(page, k)| < goal && fuel > 0 && page(StartOf(k)).Items? {
      PaginateStops(page, goal, k + 1, fuel - 1);
    }
  }

  /** A search from the first page with a budget of `fuel` page requests. */
  function SearchUntilGoal(page: int -> Page, goal: int, fuel: nat): Pagination {
    Paginate(page, goal, 0, fuel)
  }

  /**
   * The loop of `search_pdfs_until_goal`: start at index 1, extend the list with
   * each page's items and advance by ten; stop without error on a page that
   * lacks items or a failed request.
   */
  method SearchPdfsUntilGoal(page: int -> Page, goal: int, fuel: nat) returns (r: Pagination)
    ensures r == SearchUntilGoal(page, goal, fuel)
    ensures r.items == Collected(page, r.pages)
    ensures forall j :: 0 <= j < r.pages ==> |Collected(page, j)| < goal
    ensures r.complete ==> |r.items| >= goal || !page(StartOf(r.pages)).Items?
  {
    var allItems: seq<string> := [];
    var startIndex := 1;
    var k: nat := 0;
    var complete := true;
    while |allItems| < goal
      invariant k <= fuel
      invariant AllItems(page, k)
      invariant allItems == Collected(page, k)
      invariant startIndex == StartOf(k)
      invariant Paginate(page, goal, k, fuel - k) == SearchUntilGoal(page, goal, fuel)
      decreases fuel - k
    {
      if k == fuel {
        complete := false;
        break;
      }
      match page(startIndex)
      case Items(links) =>
        allItems := allItems + links;
        startIndex := startIndex + 10;
        k := k + 1;
      case _ =>
        break;
    }
    r := Pagination(allItems, k, complete);
    PaginateStops(page, goal, 0, fuel);
  }

  /**
   * A search can end on its own with a budget of no request at all exactly
   * when the goal is not positive; its result is then empty, whatever the
   * budget and whatever the service would answer.
   */
  lemma NoGoalNoRequest(page: int -> Page, goal: int, fuel: nat)
    ensures SearchUntilGoal(page, goal, 0).complete <==> goal <= 0
    ensures goal <= 0 ==> SearchUntilGoal(page, goal, fuel) == Pagination([], 0, true)
  {
  }

  /**
   * Bounded iteration: when page `m` lacks items, a budget of more than `m`
   * further requests lets the search end on its own.
   */
  lemma {:induction false} ExhaustedSearchCompletes(page: int -> Page, goal: int, k: nat, fuel: nat, m: nat)
    requires AllItems(page, k)
    requires k <= m < k + fuel
    requires !page(StartOf(m)).Items?
    ensures Paginate(page, goal, k, fuel).complete
    ensures Paginate(page, goal, k, fuel).pages <= m
    decreases fuel
  {
    if |Collected(page, k)| < goal && page(StartOf(k)).Items? {
      ExhaustedSearchCompletes(page, goal, k + 1, fuel - 1, m);
    }
  }

  /** Pages that answer with an empty item list add nothing. */
  lemma {:induction false} EmptyPagesCollectNothing(page: int -> Page, k: nat)
    requires forall j :: 0 <= j ==> page(StartOf(j)) == Items([])
    ensures AllItems(page, k) && Collected(page, k) == []
  {
    if k > 0 {
      EmptyPagesCollectNothing(page, k - 1);
    }
  }

  /**
   * A service that keeps answering with an empty item list is never left: the
   * loop advances the start index but the list never grows, so no budget is
   * enough to finish.
   */
  lemma {:induction false} EmptyPagesNeverFinish(page: int -> Page, goal: int, k: nat, fuel: nat)
    requires goal > 0
    requires forall j :: 0 <= j ==> page(StartOf(j)) == Items([])
    ensures AllItems(page, k)
    ensures !Paginate(page, goal, k, fuel).complete
    decreases fuel
  {
    EmptyPagesCollectNothing(page, k);
    if fuel > 0 {
      EmptyPagesNeverFinish(page, goal, k + 1, fuel - 1);
    }
  }
}

=== FILE: urls.dfy ===
/**
 * The two pieces of URL handling the crawler relies on: the network location
 * that `urllib.parse.urlparse` extracts (used by the domain filter) and the
 * part after the last '/' (used to name the stored file), plus the POSIX
 * `os.path.join` of two components.
 */
module Urls {
  import opened Common

  /** `s` ends with `suffix`, as Python's `str.endswith`; every string ends with "". */
  predicate EndsWith(s: string, suffix: string) {
    |suffix| <= |s| && s[|s| - |suffix|..] == suffix
  }

  /** Index of the first `c` in `s`, or `|s|` when `c` does not occur. */
  function IndexOf(s: string, c: char): (i: nat)
    ensures i <= |s|
    ensures i < |s| ==> s[i] == c
  {
    if s == [] || s[0] == c then 0 else 1 + IndexOf(s[1..], c)
  }

  /** The characters that end a network location. */
  predicate IsDelimiter(c: char) {
    c == '/' || c == '?' || c == '#'
  }

  /** Index of the first delimiter in `s`, or `|s|` when there is none. */
  function NetlocEnd(s: string): (i: nat)
    ensures i <= |s|
    ensures i < |s| ==> IsDelimiter(s[i])
  {
    if s == [] || IsDelimiter(s[0]) then 0 else 1 + NetlocEnd(s[1..])
  }

  predicate IsAsciiLetter(c: char) {
    ('a' <= c <= 'z') || ('A' <= c <= 'Z')
  }

  /** Letters, digits, '+', '-' and '.': the characters a URL scheme may hold. */
  predicate IsSchemeChar(c: char) {
    IsAsciiLetter(c) || ('0' <= c <= '9') || c == '+' || c == '-' || c == '.'
  }

  /** C0 control characters and space, stripped from the front of a URL before parsing. */
  predicate IsControlOrSpace(c: char) {
    c <= ' '
  }

  /** Tab, carriage return and line feed, deleted from the whole URL before parsing. */
  predicate IsUnsafe(c: char) {
    c == '\t' || c == '\r' || c == '\n'
  }

  /** `s` without its leading control characters and spaces. */
  function StripLeading(s: string): (r: string)
    ensures EndsWith(s, r)
  {
    if s != [] && IsControlOrSpace(s[0]) then StripLeading(s[1..]) else s
  }

  /** Exactly the leading run of control characters and spaces is dropped. */
  lemma {:induction false} StripLeadingMeaning(s: string)
    ensures var r := StripLeading(s);
      && (r == [] || !IsControlOrSpace(r[0]))
      && (forall k :: 0 <= k < |s| - |r| ==> IsControlOrSpace(s[k]))
  {
    if s != [] && IsControlOrSpace(s[0]) {
      StripLeadingMeaning(s[1..]);
    }
  }

  /** `s` with every tab, carriage return and line feed deleted. */
  function RemoveUnsafe(s: string): (r: string)
    ensures |r| <= |s|
  {
    if s == [] then [] else (if IsUnsafe(s[0]) then [] else [s[0]]) + RemoveUnsafe(s[1..])
  }

  /** The clean-up leaves no tab, carriage return or line feed behind. */
  lemma {:induction false} RemoveUnsafeLeavesNone(s: string)
    ensures forall k :: 0 <= k < |RemoveUnsafe(s)| ==> !IsUnsafe(RemoveUnsafe(s)[k])
  {
    if s != [] {
      RemoveUnsafeLeavesNone(s[1..]);
      var head: string := if IsUnsafe(s[0]) then [] else [s[0]];
      var r := RemoveUnsafe(s);
      assert r == head + RemoveUnsafe(s[1..]);
      forall k | 0 <= k < |r|
        ensures !IsUnsafe(r[k])
      {
        if k >= |head| {
          assert r[k] == RemoveUnsafe(s[1..])[k - |head|];
        }
      }
    }
  }

  /**
   * The clean-up works character by character and keeps the order: cleaning
   * a concatenation concatenates the cleaned parts.
   */
  lemma {:induction false} RemoveUnsafeAppend(a: string, b: string)
    ensures RemoveUnsafe(a + b) == RemoveUnsafe(a) + RemoveUnsafe(b)
    ensures |a| == 1 ==> RemoveUnsafe(a) == if IsUnsafe(a[0]) then [] else a
  {
    if a != [] {
      assert (a + b)[0] == a[0] && (a + b)[1..] == a[1..] + b;
      RemoveUnsafeAppend(a[1..], b);
    } else {
      assert a + b == b;
    }
  }

  /** A string without tab, carriage return or line feed is left as it is. */
  lemma {:induction false} RemoveUnsafeOfClean(s: string)
    requires forall k :: 0 <= k < |s| ==> !IsUnsafe(s[k])
    ensures RemoveUnsafe(s) == s
  {
    if s != [] {
      RemoveUnsafeOfClean(s[1..]);
      assert [s[0]] + s[1..] == s;
    }
  }

  /** Every character of `s` may appear in a scheme. */
  predicate AllSchemeChars(s: string) {
    s == [] || (IsSchemeChar(s[0]) && AllSchemeChars(s[1..]))
  }

  lemma {:induction false} AllSchemeCharsMeaning(s: string)
    ensures AllSchemeChars(s) <==> forall k :: 0 <= k < |s| ==> IsSchemeChar(s[k])
  {
    if s != [] {
      AllSchemeCharsMeaning(s[1..]);
      assert forall k :: 1 <= k < |s| ==> s[1..][k - 1] == s[k];
    }
  }

  /** An ASCII letter followed by scheme characters. */
  predicate IsScheme(p: string) {
    |p| > 0 && IsAsciiLetter(p[0]) && AllSchemeChars(p)
  }

  /**
   * What follows "scheme:" when the text before the first ':' is a scheme
   * (an ASCII letter followed by scheme characters); otherwise the whole URL.
   */
  function AfterScheme(u: string): (r: string)
    ensures EndsWith(u, r)
  {
    var i := IndexOf(u, ':');
    if i < |u| && IsScheme(u[..i]) then u[i + 1..]
    else u
  }

  /** The URL after the clean-up `urlsplit` does first, without its scheme. */
  function Hierarchical(url: string): (r: string)
    ensures |r| <= |url|
  {
    AfterScheme(RemoveUnsafe(StripLeading(url)))
  }

  /**
   * The network location `urlparse(url).netloc`: after the scheme, the text
   * between a leading "//" and the first '/', '?' or '#'; empty when there is
   * no "//". None models the ValueError raised for an unbalanced '[' or ']'.
   */
  function Netloc(url: string): (r: Option<string>)
  {
    AuthorityOf(Hierarchical(url))
  }

  /** The network location read from the URL's text after its scheme. */
  function AuthorityOf(rest: string): (r: Option<string>)
  {
    if |rest| >= 2 && rest[0] == '/' && rest[1] == '/' then
      var tail := rest[2..];
      var host := tail[..NetlocEnd(tail)];
      if ('[' in host) != (']' in host) then None else Some(host)
    else
      Some([])
  }

  /** The first occurrence is the unique index with no earlier occurrence. */
  lemma {:induction false} IndexOfIs(s: string, c: char, i: nat)
    requires i < |s| && s[i] == c
    requires forall k :: 0 <= k < i ==> s[k] != c
    ensures IndexOf(s, c) == i
  {
    if i > 0 {
      IndexOfIs(s[1..], c, i - 1);
    }
  }

  /** The network location ends at the first delimiter, or at the end of the text. */
  lemma {:induction false} NetlocEndIs(s: string, i: nat)
    requires i <= |s|
    requires i < |s| ==> IsDelimiter(s[i])
    requires forall k :: 0 <= k < i ==> !IsDelimiter(s[k])
    ensures NetlocEnd(s) == i
  {
    if i > 0 {
      NetlocEndIs(s[1..], i - 1);
    }
  }

  /** No delimiter comes before the end of the network location. */
  lemma {:induction false} NetlocEndFirst(s: string)
    ensures forall k :: 0 <= k < NetlocEnd(s) ==> !IsDelimiter(s[k])
  {
    if s != [] && !IsDelimiter(s[0]) {
      NetlocEndFirst(s[1..]);
      assert forall k :: 1 <= k < |s| ==> s[1..][k - 1] == s[k];
    }
  }

  /** A network location, when there is one, holds no '/', '?' or '#'. */
  lemma NetlocHasNoDelimiter(url: string)
    ensures Netloc(url).Some? ==> forall k :: 0 <= k < |Netloc(url).value| ==> !IsDelimiter(Netloc(url).value[k])
  {
    var rest := Hierarchical(url);
    if |rest| >= 2 && rest[0] == '/' && rest[1] == '/' {
      NetlocEndFirst(rest[2..]);
    }
  }

  /** A recognised scheme and its ':' are dropped, and only they. */
  lemma AfterSchemeOf(scheme: string, rest: string)
    requires |scheme| > 0 && IsAsciiLetter(scheme[0])
    requires forall k :: 0 <= k < |scheme| ==> IsSchemeChar(scheme[k])
    ensures AfterScheme(scheme + ":" + rest) == rest
  {
    var u := scheme + ":" + rest;
    assert u[|scheme|] == ':';
    assert forall k :: 0 <= k < |scheme| ==> u[k] == scheme[k];
    IndexOfIs(u, ':', |scheme|);
    assert u[..|scheme|] == scheme;
    AllSchemeCharsMeaning(scheme);
    assert u[|scheme| + 1..] == rest;
  }

  /** A URL free of tab, CR and LF that starts with a letter is left as it is by the clean-up. */
  lemma CleanUpKeeps(u: string)
    requires |u| > 0 && IsAsciiLetter(u[0])
    requires forall k :: 0 <= k < |u| ==> !IsUnsafe(u[k])
    ensures RemoveUnsafe(StripLeading(u)) == u
  {
    assert StripLeading(u) == u;
    RemoveUnsafeOfClean(u);
  }

  /** A URL assembled from parts free of tab, CR and LF holds none either. */
  lemma NoUnsafeInParts(scheme: string, netloc: string, path: string)
    requires forall k :: 0 <= k < |scheme| ==> IsSchemeChar(scheme[k])
    requires forall k :: 0 <= k < |netloc| ==> !IsUnsafe(netloc[k])
    requires forall k :: 0 <= k < |path| ==> !IsUnsafe(path[k])
    ensures forall k :: 0 <= k < |scheme + "://" + netloc + path| ==> !IsUnsafe((scheme + "://" + netloc + path)[k])
  {
    var u := scheme + "://" + netloc + path;
    forall k | 0 <= k < |u|
      ensures !IsUnsafe(u[k])
    {
      if k < |scheme| {
        assert u[k] == scheme[k];
      } else if k >= |scheme| + 3 + |netloc| {
        assert u[k] == path[k - |scheme| - 3 - |netloc|];
      } else if k >= |scheme| + 3 {
        assert u[k] == netloc[k - |scheme| - 3];
      }
    }
  }

  /** After the scheme, "//" then a network location ending at a delimiter (or the end) names it. */
  lemma AuthorityOfNetloc(netloc: string, path: string)
    requires forall k :: 0 <= k < |netloc| ==> !IsDelimiter(netloc[k])
    requires ('[' in netloc) == (']' in netloc)
    requires path == [] || IsDelimiter(path[0])
    ensures AuthorityOf("//" + netloc + path) == Some(netloc)
  {
    var tail := netloc + path;
    var rest := "//" + tail;
    assert "//" + netloc + path == rest;
    assert rest[0] == '/' && rest[1] == '/' && rest[2..] == tail;
    NetlocEndIs(tail, |netloc|);
    assert tail[..|netloc|] == netloc;
  }

  /**
   * For an absolute URL "scheme://netloc" followed by a path, query or
   * fragment, the network location is exactly `netloc`, with any user info
   * and port it holds. The network location is ASCII and holds no bracket
   * here.
   */
  lemma NetlocOfAbsoluteUrl(scheme: string, netloc: string, path: string)
    requires |scheme| > 0 && IsAsciiLetter(scheme[0])
    requires forall k :: 0 <= k < |scheme| ==> IsSchemeChar(scheme[k])
    requires forall k :: 0 <= k < |netloc| ==> !IsDelimiter(netloc[k]) && !IsUnsafe(netloc[k])
    requires forall k :: 0 <= k < |netloc| ==> netloc[k] < 128 as char
    requires '[' !in netloc && ']' !in netloc
    requires path == [] || IsDelimiter(path[0])
    requires forall k :: 0 <= k < |path| ==> !IsUnsafe(path[k])
    ensures Netloc(scheme + "://" + netloc + path) == Some(netloc)
  {
    var rest := "//" + netloc + path;
    var u := scheme + "://" + netloc + path;
    assert u == scheme + ":" + rest;
    NoUnsafeInParts(scheme, netloc, path);
    CleanUpKeeps(u);
    AfterSchemeOf(scheme, rest);
    AuthorityOfNetloc(netloc, path);
  }

  /** `url.split('/')[-1]`: the longest suffix of `s` that holds no '/'. */
  function LastSegment(s: string): (r: string)
    ensures EndsWith(s, r)
    ensures forall k :: 0 <= k < |r| ==> r[k] != '/'
    ensures |r| < |s| ==> s[|s| - |r| - 1] == '/'
  {
    if s == [] || s[|s| - 1] == '/' then []
    else
      var p := LastSegment(s[..|s| - 1]);
      EndsWithSnoc(s, p);
      p + [s[|s| - 1]]
  }

  /** A suffix of all but the last character, followed by that character, is a suffix. */
  lemma EndsWithSnoc(s: string, p: string)
    requires |s| > 0 && EndsWith(s[..|s| - 1], p)
    ensures EndsWith(s, p + [s[|s| - 1]])
    ensures |p| + 1 < |s| ==> s[|s| - |p| - 2] == s[..|s| - 1][|s| - 1 - |p| - 1]
  {
    var init := s[..|s| - 1];
    assert s == init + [s[|s| - 1]];
    assert s[|s| - |p| - 1..] == init[|init| - |p|..] + [s[|s| - 1]];
  }

  /** `os.path.join(dir, name)` on POSIX: an absolute `name` replaces `dir`. */
  function JoinPath(dir: string, name: string): (r: string)
    ensures EndsWith(r, name)
    ensures (|name| > 0 && name[0] == '/') || (|dir| <= |r| && r[..|dir|] == dir)
    ensures !(|name| > 0 && name[0] == '/') && dir != [] && dir[|dir| - 1] != '/' ==> r == dir + "/" + name
    ensures |name| > 0 && name[0] == '/' ==> r == name
    ensures !(|name| > 0 && name[0] == '/') ==> r == dir + name || r == dir + "/" + name
    ensures r == dir + "/" + name ==> dir != [] && dir[|dir| - 1] != '/'
  {
    if |name| > 0 && name[0] == '/' then name
    else if dir == [] || dir[|dir| - 1] == '/' then dir + name
    else dir + "/" + name
  }
}
